=== FILE: README.md ===
# aioscrapy: batched DB-write pipeline and URL-length middleware, in Dafny

This project models two sequential components of aioscrapy and proves properties of them.

**The batched database pipeline** (`aioscrapy/pipelines/db.py`) has three parts.

- **`SqlFormat`** builds the statement text. It emits MySQL `INSERT`, `INSERT IGNORE` and
  `INSERT ... ON DUPLICATE KEY UPDATE` with one `%s` placeholder per column. It also emits a
  ClickHouse-style `INSERT ... VALUES ` prefix. A dispatcher picks the builder by the name
  `<db_type>_<insert_type>`.
- **`ItemCache.parse_item_to_cache`** handles each item.
  - It pops the four control keys: `save_table_name`, `save_insert_type`,
    `save_update_fields` and `save_db_alias`.
  - It builds a cache key from the item's shape.
  - It creates the group for that key the first time it sees the key.
  - It appends the item's row, with values in the group's column order.
- **`DBPipelineBase` / `MysqlPipeline`** form a state machine over the cache.
  - `save_item` flushes a group when its buffer reaches `cache_num` rows.
  - The periodic `save_interval` and `close` flush every non-empty group.
  - `_save` writes a buffer to each database alias in turn and then empties the buffer.

**`UrlLengthMiddleware`** (`aioscrapy/spidermiddlewares/urllength.py`) filters what a spider
callback yields. It drops each request whose URL is longer than `URLLENGTH_LIMIT` and counts
the drops in the stats.

Each pipeline operation runs under the pipeline's single `asyncio.Lock`, so each is modelled
as one atomic transition over immutable state (`DbPipeline.Step`). The database is an oracle
`Writer`. For each cache key and alias it says one of these things:

- getting a connection raises;
- the connection is had, and then the batch either commits or raises;
- when the batch raises, the rollback in the handler either succeeds (the error is logged)
  or raises itself.

Modules:

| file | module | contents |
|---|---|---|
| results.dfy | `Results` | `Option` and `Result`, usable with `:-` |
| config.dfy | `Config` | integer settings and `getint` |
| text.dfy | `Text` | join, split and prefix helpers on strings, with round-trip lemmas |
| items.dfy | `Items` | a scraped item as an insertion-ordered dict: `Get`, and `Without` for `pop` |
| sql_format.dfy | `SqlFormat` | the builders, the dispatcher, and a reader of the statement shape used for the round trips |
| item_cache.dfy | `ItemCache` | control keys, cache key, group creation and row admission |
| db_pipeline.dfy | `DbPipeline` | `_save`, the threshold flush, the sweeps, and runs of many calls |
| url_length.dfy | `UrlLength` | `from_settings` and the filter, with its reference definitions |

Decisions where the code fixes the semantics:

- **Dispatch.** The dispatcher's `getattr` at line 37 raises as soon as no builder carries
  the joined name. The message at line 40 is therefore never reached. The model returns
  `Unsupported(name)` for that case and does not distinguish exception classes.
- **Order of errors in `parse_item_to_cache`.**
  - A missing `save_table_name` raises before anything is popped.
  - A `None` table is popped first and then refused.
  - A control value of the wrong type fails the concatenation at line 74, before any group
    is touched. The checks come in Python's evaluation order: update fields, then insert
    type, then table.
- **Aliases.**
  - A string alias becomes a one-element list.
  - Any other non-list alias value is kept. It makes the `for` loop of `_save` raise, after
    the `finally` has emptied the buffer.
  - Failing to get a connection (line 152) is outside the inner `try`. It ends the alias
    loop and propagates. So does a `rollback` that raises inside the handler (line 159).
- **`save_interval`.** An exception escapes before line 130, so the sweep task is not
  rescheduled. The model clears the `timer` flag in that case.

## Model

| member | source | states |
|---|---|---|
| SqlFormat.GetSql | aioscrapy/pipelines/db.py:36-40 | The dispatcher succeeds exactly when `<db_type>_<insert_type>` names one of the four builders; otherwise it fails with that name. |
| SqlFormat.MysqlDispatch | aioscrapy/pipelines/db.py:36-40 | For `db_type` `mysql`, the insert types `insert`, `ignore_insert` and `update_insert` select the plain, ignoring and upsert builders; every other insert type is refused. |
| SqlFormat.CkDispatch | aioscrapy/pipelines/db.py:36-40 | For `db_type` `ck`, only `insert` has a builder (the ClickHouse prefix); every other insert type is refused. |
| SqlFormat.CkInsertRoundTrip | aioscrapy/pipelines/db.py:11-13 | The ClickHouse text reads back as its table and its columns in the given order, with no placeholder list and no update clause. |
| SqlFormat.CkInsertHasNoPlaceholder | aioscrapy/pipelines/db.py:11-13 | With no `%` in the names, the ClickHouse text has no placeholder at all and ends in `VALUES `. |
| SqlFormat.MysqlInsertRoundTrip | aioscrapy/pipelines/db.py:16-19 | The plain insert reads back as its table, its columns in order, and exactly one `%s` per column. |
| SqlFormat.MysqlIgnoreInsertRoundTrip | aioscrapy/pipelines/db.py:22-25 | The ignoring insert reads back like the plain insert, with the `IGNORE` modifier set. |
| SqlFormat.IgnoreOnlyAddsKeyword | aioscrapy/pipelines/db.py:16-25 | The ignoring insert is the plain insert with `IGNORE ` inserted after `INSERT `, and otherwise the same text. |
| SqlFormat.MysqlUpdateInsertRoundTrip | aioscrapy/pipelines/db.py:28-34 | The upsert reads back as table, columns and one placeholder per column, and an update clause `k = VALUES(k)` for each update field in order. An empty update list updates every inserted column. |
| SqlFormat.BuildersExtendEachOther | aioscrapy/pipelines/db.py:11-34 | The upsert is the plain insert followed by the update clause. The plain insert is the ClickHouse prefix followed by the placeholder list. |
| SqlFormat.PlaceholdersRoundTrip | aioscrapy/pipelines/db.py:17 | `','.join(['%s'] * n)` reads back as exactly `n` placeholders. |
| ItemCache.ParseControl | aioscrapy/pipelines/db.py:57-74 | A missing table name is refused with the item untouched; a `None` one is refused after its own pop. Otherwise the item comes out without all four control keys, and the field list is its remaining keys in order, none of them a control key. The shape parses exactly when the table is a string, the insert type (default `insert`) a string and the update fields (default `[]`) a list. Its table, insert type and update fields are then the values the item held. |
| ItemCache.BadTypeOrder | aioscrapy/pipelines/db.py:62-74 | A control value of the wrong type is reported for the update fields first, then the insert type, then the table, each exactly when it is the first ill-typed one. |
| ItemCache.PopsInOrder | aioscrapy/pipelines/db.py:57-68 | The four successive pops read the values the item held, and leave the item that dropping all four keys at once leaves. |
| ItemCache.ControlDefaults | aioscrapy/pipelines/db.py:62-70 | An item naming only its table is a plain `insert` with no update fields into the alias list `["default"]`, and its fields are its keys other than the control keys. |
| ItemCache.AliasNameBecomesList | aioscrapy/pipelines/db.py:68-70 | When an item's `save_db_alias` is a single name and the item is accepted, it is routed to the one-element list of that name. |
| ItemCache.SameShapeSameKey | aioscrapy/pipelines/db.py:74 | Shapes that agree on fields, update fields, insert type and table share one cache key, whatever their aliases. |
| ItemCache.KeyConcatenationCollides | aioscrapy/pipelines/db.py:74 | Because the key is a bare concatenation, two different field lists can share a key. |
| ItemCache.RowFor | aioscrapy/pipelines/db.py:94 | The row exists exactly when the item has every field of the group. It then holds each field's value in field-list order. Otherwise the error names a missing field. |
| ItemCache.Append | aioscrapy/pipelines/db.py:94-95 | The item is appended exactly when it has every field of the group. It then adds exactly one row to the key's buffer and changes no other group, and the returned count is the new buffer length. An item lacking a field changes nothing and is refused with the missing field. |
| ItemCache.Create | aioscrapy/pipelines/db.py:76-86 | A new group goes at the end of the iteration order with an empty buffer, and the cache stays well formed. |
| ItemCache.Admit | aioscrapy/pipelines/db.py:55-95 | A refusal leaves the cache as it was. An admission appends one row under the item's cache key and changes no other group. A new group records table, fields, aliases and the dispatcher's statement; an existing group keeps its own. The row holds the item's values in the group's field order. The count is the buffer length. Every group keeps its statement. |
| ItemCache.AdmittedExactly | aioscrapy/pipelines/db.py:55-95 | An item is admitted exactly when its control values parse and, for a known key, it has every field of the group, or, for a new key, the dispatcher has a builder. |
| ItemCache.RefusalReason | aioscrapy/pipelines/db.py:55-95 | A refused item raises the parse error, the missing field of the group, or the unsupported builder name, whichever applies. |
| ItemCache.AdmitNewCreates | aioscrapy/pipelines/db.py:76-95 | A new key's group is created with the item's keys as fields and holds exactly the item's row. The other groups are as they were. |
| ItemCache.AdmitAsWritten | aioscrapy/pipelines/db.py:76-91 | The admission as written: the group is stored before its statement is built, so an item whose shape parses always leaves a group for its key, even when it is refused. |
| ItemCache.AsWrittenAgrees | aioscrapy/pipelines/db.py:76-95 | The as-written admission gives the same outcome and the same popped item as the corrected one, and the same cache, except when the key is new and the dispatcher raises: then the cache gains the key's group with no statement and no rows. |
| ItemCache.AsWrittenAcceptsAfterRefusal | aioscrapy/pipelines/db.py:76-94 | As written, an item whose insert type has no builder is refused, yet leaves a group without a statement. The next item with the same table, fields, update fields and insert type, admitted right after the refusal, is accepted as that group's first row. |
| ItemCache.ReplaceItemHasNoBuilder | aioscrapy/pipelines/db.py:36-40 | A `mysql` item with insert type `replace` parses, but the dispatcher has no builder for `mysql_replace`. |
| ItemCache.ReplaceTwiceAsWritten | aioscrapy/pipelines/db.py:76-94 | The concrete case: a `mysql` item with insert type `replace`, sent twice to an empty cache, is refused the first time and accepted the second. |
| ItemCache.RefusalLeavesNoGroup | aioscrapy/pipelines/db.py:76-91 | With the statement built first, a refused item leaves no trace: sending it again is refused in exactly the same way. |
| ItemCache.ReplaceTwiceCorrected | aioscrapy/pipelines/db.py:76-91 | The concrete case under the corrected admission: both copies of the `replace` item are refused, and the cache stays empty. |
| ItemCache.MissingTableRefused | aioscrapy/pipelines/db.py:57-59 | A missing or `None` table name is refused, no group is created and no row is appended. |
| DbPipeline.New | aioscrapy/pipelines/db.py:99-105 | A new pipeline has the given dialect, an empty cache, no sweep task and the pipeline invariant. Its threshold is `SAVE_CACHE_NUM` (500 when unset), and its interval is `SAVE_CACHE_INTERVAL` (10 when unset). |
| DbPipeline.DefaultThresholds | aioscrapy/pipelines/db.py:100-101 | Without settings a group is flushed at 500 rows and the sweep runs every 10 seconds. |
| DbPipeline.FromSettings | aioscrapy/pipelines/db.py:144-146 | The MySQL pipeline is a new pipeline of dialect `mysql`: its cache is empty, no timer runs, and its flush size and interval are `SAVE_CACHE_NUM` and `SAVE_CACHE_INTERVAL`, 500 and 10 when unset. |
| DbPipeline.OpenArmsSweep | aioscrapy/pipelines/db.py:107-110 | Before opening, a firing of the sweep does nothing. After opening, a firing that raises nothing flushes exactly the non-empty groups in creation order, empties them, and stays scheduled. |
| DbPipeline.WriteAll | aioscrapy/pipelines/db.py:151-160 | The aliases are tried in list order, and a rolled-back execution does not stop the later ones. The first alias whose connection cannot be had, or whose rollback raises, ends the loop with that exception. A batch is written exactly where a statement exists and the execution commits. |
| DbPipeline.AllAliasesTried | aioscrapy/pipelines/db.py:151-160 | When no alias raises out of the loop, every alias is tried, in order, and nothing escapes. |
| DbPipeline.GroupsFareIndependently | aioscrapy/pipelines/db.py:151-160 | Two groups sent to the same alias can fare differently: one commits while the other is rolled back. |
| DbPipeline.Save | aioscrapy/pipelines/db.py:148-162 | The buffer is empty afterwards whatever happened, and nothing else in the cache changes. The batch carries the whole buffer, and the alias attempts follow the fan-out rule. Non-list aliases raise with no attempt. |
| DbPipeline.UnpreparedGroupWritesNothing | aioscrapy/pipelines/db.py:154-160 | A group without a statement is rolled back at every alias it reaches. |
| DbPipeline.SweepDrains | aioscrapy/pipelines/db.py:120-123 | A sweep keeps every group and the creation order, and only ever empties buffers. |
| DbPipeline.SweepConserves | aioscrapy/pipelines/db.py:120-123 | For every key, the buffer before the sweep is the rows the sweep flushed from it followed by the rows it left there. |
| DbPipeline.SweepLeaves | aioscrapy/pipelines/db.py:120-123 | Buffers outside the swept keys are untouched. |
| DbPipeline.SweepBatch | aioscrapy/pipelines/db.py:122-123 | Every batch of a sweep is one of the swept groups, carrying its whole, non-empty buffer. It is exactly the `_save` of that group as it stood before the sweep: the same aliases tried, the same attempts and the same exception. |
| DbPipeline.SaveSameGroup | aioscrapy/pipelines/db.py:148-162 | `_save` reads only its own group: two caches that agree on that group flush it with the same batch. |
| DbPipeline.SweepSaves | aioscrapy/pipelines/db.py:120-123 | A sweep is a run of `_save` calls on the groups as they stood before it. Only the last call may raise, and the sweep raises exactly that call's exception. |
| DbPipeline.SweepStopsAtFailure | aioscrapy/pipelines/db.py:120-123 | A sweep stops at the first exception: a batch that carries one is the last batch of the sweep. |
| DbPipeline.SweepFailureIsLast | aioscrapy/pipelines/db.py:120-123 | The exception a sweep raises is the one its last batch carries, and a sweep that raises nothing has no failing batch. |
| DbPipeline.SweepComplete | aioscrapy/pipelines/db.py:120-129 | A sweep that raises nothing flushes exactly the non-empty groups, in creation order, and leaves all of them empty. |
| DbPipeline.SaveItem | aioscrapy/pipelines/db.py:132-136 | `save_item` over the corrected admission keeps the invariant: the cache is well formed, every group has its statement, and no buffer holds `cache_num` rows or more unless it is empty. Only the cache changes. |
| DbPipeline.SaveItemRefused | aioscrapy/pipelines/db.py:132-134 | Over the corrected admission, a refused item changes nothing, flushes nothing and raises the cache's error. |
| DbPipeline.SaveItemAccepted | aioscrapy/pipelines/db.py:132-136 | An admitted item flushes its group exactly when the returned count reaches `cache_num`. An exception can only come from that flush. |
| DbPipeline.SaveItemConserves | aioscrapy/pipelines/db.py:132-136 | For every key, the old buffer plus the row admitted there equals the rows flushed from it followed by the new buffer. |
| DbPipeline.SaveItemFlushesItsGroup | aioscrapy/pipelines/db.py:134-136 | A threshold flush carries the whole buffer of the admitted row's group, with that row last. |
| DbPipeline.ProcessItem | aioscrapy/pipelines/db.py:112-114 | The item comes back, without its control keys, exactly when saving it raised nothing. |
| DbPipeline.Sweeping | aioscrapy/pipelines/db.py:120-123 | The sweep over all groups needs no statement in any group. It keeps the cache consistent, and keeps the invariant when it held before. Its batches are `_save` calls, and only the last may raise. When it raises nothing, it flushes exactly the non-empty groups in creation order and empties every buffer. |
| DbPipeline.SweepingConserves | aioscrapy/pipelines/db.py:120-123 | For every key, the sweep's flushed rows followed by what remains make up the buffer it found. |
| DbPipeline.SaveInterval | aioscrapy/pipelines/db.py:125-130 | Without a scheduled task nothing happens. Otherwise the tick's batches are `_save` calls on the groups, and its error is the exception of the last one, if any. A sweep that raises nothing empties every buffer and keeps the task scheduled. One that raises stops the rescheduling. |
| DbPipeline.Close | aioscrapy/pipelines/db.py:116-123 | Closing cancels the sweep task. Its batches are `_save` calls on the groups, and an error can only be the exception of the last one. Unless a write raises, it flushes exactly the non-empty groups in creation order and leaves every buffer empty. |
| DbPipeline.NoSweepAfterClose | aioscrapy/pipelines/db.py:116-118 | Once closed, the sweep task does no further work. |
| DbPipeline.Apply | aioscrapy/pipelines/db.py:112-136 | Each call the framework makes keeps the invariant, the dialect and the threshold. |
| DbPipeline.ApplyConserves | aioscrapy/pipelines/db.py:112-136 | Each call keeps every buffer's rows in order: before, plus the admitted row, equals flushed, followed by after. |
| DbPipeline.Run | aioscrapy/pipelines/db.py:112-136 | Any sequence of calls keeps the invariant. |
| DbPipeline.RunConserves | aioscrapy/pipelines/db.py:112-162 | Along any run, no row is lost, duplicated or reordered. For every key, the initial buffer plus all rows admitted equals all rows flushed followed by the final buffer. |
| DbPipeline.EveryAdmittedRowFlushed | aioscrapy/pipelines/db.py:116-123 | A run that ends in a clean close has flushed every admitted row of every group, in arrival order. |
| UrlLength.FromSettings | aioscrapy/spidermiddlewares/urllength.py:20-25 | The middleware is refused exactly when `URLLENGTH_LIMIT` is unset or 0; otherwise its limit is that setting. |
| UrlLength.ProcessSpiderOutput | aioscrapy/spidermiddlewares/urllength.py:27-40 | The output is the filtered input, and the ignored-request counter rises by the number of dropped requests. The counter is untouched when nothing is dropped. A missing result yields nothing. |
| UrlLength.FilterAsWritten | aioscrapy/spidermiddlewares/urllength.py:40 | As written, a missing result raises rather than yielding nothing. |
| UrlLength.KeptMembers | aioscrapy/spidermiddlewares/urllength.py:28-38 | An output survives exactly when it is not a request, or is a request whose URL is within the limit. |
| UrlLength.KeptCount | aioscrapy/spidermiddlewares/urllength.py:28-40 | Every output is either passed on or counted as dropped. |
| UrlLength.DroppedAreLongRequests | aioscrapy/spidermiddlewares/urllength.py:29-36 | The drop count equals the number of rejected outputs, and those are exactly the requests whose URL is over the limit. |
| UrlLength.KeptIsSubsequence | aioscrapy/spidermiddlewares/urllength.py:40 | The output is an order-preserving subsequence of the input. |
| UrlLength.OthersPass | aioscrapy/spidermiddlewares/urllength.py:29-38 | Every non-request output passes through unchanged and in order. |
| UrlLength.ShortOutputsAllPass | aioscrapy/spidermiddlewares/urllength.py:29-38 | When every URL is within the limit, the filter is the identity and drops nothing. |
| UrlLength.KeptIdempotent | aioscrapy/spidermiddlewares/urllength.py:28-40 | Filtering already filtered output changes nothing. |

## Left out

- Concurrency and timing are left out. This covers the `asyncio.Lock`, `asyncio.create_task`,
  the sleep in `save_interval` and task cancellation (aioscrapy/pipelines/db.py:104-130). Each
  locked body is one atomic transition. The sweep task is a flag, and each firing is a `Tick`.
  `DbPipeline.Run` assumes that an exception from one call does not stop the framework from
  making the next call. The crawl loop that decides this (aioscrapy/crawler.py) is not part of
  this model.
- The database is left out. This covers `get_manager(...).get(alias)`, `executemany`,
  `commit`, `rollback`, logging, and pool creation in `open_spider`. They become the `Writer`
  oracle. aioscrapy/db/__init__.py is not part of this model.
- `DBPipelineBase._save` raising `NotImplementedError` is not modelled. Only the MySQL
  subclass is modelled.
- DbPipeline.WriteAll: the oracle answers per cache key and alias. An alias listed twice in
  one batch therefore gets the same outcome both times, where a real database could differ. A
  `commit` that raises is not told apart from an `executemany` that raises: the handler
  treats them alike.
- DbPipeline.SaveItem, DbPipeline.SaveItemRefused, DbPipeline.ProcessItem, DbPipeline.Apply and DbPipeline.Run model
  `save_item` over the corrected admission (`ItemCache.Admit`), not the one as written. As
  written, a refusal for an unsupported insert type leaves a group without a statement behind
  (see Findings), so "every group has its statement" and "a refused item changes nothing" are
  not properties of the code as written. The as-written admission is modelled on its own by
  `ItemCache.AdmitAsWritten`, and `ItemCache.AsWrittenAgrees` states exactly where the two differ. The sweeps of `close` and
  `save_interval` (`DbPipeline.Sweeping`, `DbPipeline.SaveInterval`, `DbPipeline.Close`) need no
  statement in any group, so they also cover a cache the as-written admission left behind.
- Items are simplified. Item keys are strings. Values are `None`, strings, integers and
  lists of strings. Other Python values are not modelled. Among them are a
  `save_update_fields` list holding a non-string, which raises where `parse_item_to_cache` builds the cache key, and a tuple or
  other iterable alias value, which the loop at line 151 would iterate.
- Exception classes are not modelled. Refusals carry which check failed (`CacheError`,
  `SaveError`) but not the Python exception class or its message.
- Dispatcher names that happen to match other attributes of `SqlFormat` are not modelled.
  For example `db_type` `_` with `insert_type` `call__` reaches `__call__`. The model treats
  every name other than the four builders as unsupported.
- SqlFormat.MysqlInsertRoundTrip, SqlFormat.MysqlIgnoreInsertRoundTrip,
  SqlFormat.MysqlUpdateInsertRoundTrip and SqlFormat.CkInsertRoundTrip are stated only for
  certain names. The table name must have no space. The column and update names must be
  non-empty and free of space, comma and `)`. Other names make the statement text ambiguous.
- `settings.getint` conversion of string or float settings is left out. DbPipeline.New and
  UrlLength.FromSettings take settings that are already integers.
- The timing of the sweep interval is left out. The value is kept in
  `DbPipeline.Pipeline.interval` but not used.
- In urllength.py, logging and the `spider` argument of the stats call are left out. The
  ignored-request counter is the only stats effect modelled. A request is its URL plus an
  opaque remainder.
- `process_spider_output` is modelled on the whole result. The lazy, element-by-element
  consumption of the asynchronous generator is left out.

## Findings

| source | as written | input that shows it | evidently intended | confidence | as-written member | corrected member |
|---|---|---|---|---|---|---|
| aioscrapy/pipelines/db.py:76-91 | The alias, table, field and buffer entries of a new cache key are stored (lines 78-86) before `get_sql` runs (line 89). When the dispatcher raises, the group stays without a statement. | A `mysql` item with `save_insert_type` `replace`, sent twice: the first is refused, the second is accepted into the group and rolled back at every alias when flushed (`ItemCache.ReplaceTwiceAsWritten`, in general `ItemCache.AsWrittenAcceptsAfterRefusal`). | An unsupported insert type is refused every time and leaves no group behind. | not executed; high | ItemCache.AdmitAsWritten | ItemCache.Admit |
| aioscrapy/spidermiddlewares/urllength.py:40 | The fallback `result or ()` gives `async for` a tuple, which has no `__aiter__`. Building the generator expression then raises `TypeError`. | `result` is `None` (`UrlLength.MissingResultRaises`). | A missing result yields no output. | not executed; medium | UrlLength.FilterAsWritten | UrlLength.ProcessSpiderOutput |

The pipeline (`DbPipeline.SaveItem`) uses the corrected admission. With it every group keeps
its statement (`ItemCache.Admit`). A refusal leaves no trace, so a repeated item is refused
again (`ItemCache.RefusalLeavesNoGroup`, and `ItemCache.ReplaceTwiceCorrected` for the
concrete input).

=== FILE: config.dfy ===
/** The crawler settings, as far as the modelled components read them:
    integer values by name. */
module Config {

  type Settings = map<string, int>

  /** `settings.getint(name, default)`: the stored value, or `default` when the
      name is not set. */
  function GetInt(settings: Settings, name: string, default: int): int
  {
    if name in settings then settings[name] else default
  }
}

=== FILE: db_pipeline.dfy ===
/** The batched DB-write pipeline (`DBPipelineBase` with `MysqlPipeline._save`)
    as a state machine over the item cache. Each operation runs under the
    pipeline's one `asyncio.Lock`, so each is one atomic transition here.
    The database is an oracle `Writer` telling, per cache key and alias,
    whether getting a connection fails, and otherwise whether the batch
    commits and whether a rollback raises. */
module DbPipeline {
  import opened Results
  import opened Items
  import opened ItemCache
  import opened Config

  const DefaultCacheNum := 500
  const DefaultInterval := 10

  /** The flush threshold, the sweep interval in seconds, the dialect, the
      cache, and whether the periodic sweep task is scheduled. */
  datatype Pipeline = Pipeline(dbType: string, cacheNum: int, interval: int, cache: Cache, timer: bool)

  /** `DBPipelineBase.__init__`: thresholds from the settings with their
      defaults, an empty cache, no sweep task yet. */
  function New(settings: Settings, dbType: string): (p: Pipeline)
    ensures Inv(p) && !p.timer && p.dbType == dbType
    ensures p.cache.order == [] && p.cache.groups == map[]
    ensures p.cacheNum == if "SAVE_CACHE_NUM" in settings then settings["SAVE_CACHE_NUM"] else 500
    ensures p.interval == if "SAVE_CACHE_INTERVAL" in settings then settings["SAVE_CACHE_INTERVAL"] else 10
  {
    Pipeline(dbType, GetInt(settings, "SAVE_CACHE_NUM", DefaultCacheNum),
             GetInt(settings, "SAVE_CACHE_INTERVAL", DefaultInterval), EmptyCache(), false)
  }

  /** `MysqlPipeline.from_settings`. */
  function FromSettings(settings: Settings): (p: Pipeline)
    ensures Inv(p) && !p.timer && p.dbType == "mysql"
    ensures p.cache.order == [] && p.cache.groups == map[]
    ensures p.cacheNum == if "SAVE_CACHE_NUM" in settings then settings["SAVE_CACHE_NUM"] else 500
    ensures p.interval == if "SAVE_CACHE_INTERVAL" in settings then settings["SAVE_CACHE_INTERVAL"] else 10
  {
    New(settings, "mysql")
  }

  /** Without settings the pipeline flushes a group at 500 rows and sweeps every 10 seconds. */
  lemma DefaultThresholds()
    ensures FromSettings(map[]).cacheNum == 500 && FromSettings(map[]).interval == 10
  {
  }

  /** `open_spider`: the periodic sweep is scheduled (pool creation is left to
      the connection manager). */
  function Open(p: Pipeline): Pipeline
  {
    p.(timer := true)
  }

  // ---------------------------------------------------------------------
  // Invariants

  /** No buffer holds `cacheNum` rows or more, unless it is empty (which only
      matters when `cacheNum <= 0`). */
  ghost predicate BelowThreshold(p: Pipeline)
  {
    forall k :: k in p.cache.groups ==> |p.cache.groups[k].rows| < p.cacheNum || p.cache.groups[k].rows == []
  }

  ghost predicate Inv(p: Pipeline)
  {
    Valid(p.cache) && Prepared(p.cache) && BelowThreshold(p)
  }

  // ---------------------------------------------------------------------
  // Writing one batch

  /** What the database does at one alias: the connection cannot be had, or
      it is had, the statement commits or raises, and the rollback that
      follows a raising statement may itself raise. */
  datatype WriteOutcome = AcquireFailed | Connected(commits: bool, rollbackRaises: bool)

  /** What the database does for the batch of a cache key sent to an alias. */
  type Writer = (string, string) -> WriteOutcome

  datatype AttemptResult = Written | RolledBack

  datatype Attempt = Attempt(alias: string, result: AttemptResult)

  /** The exceptions that escape `_save`. */
  datatype SaveError = AcquireError(alias: string) | RollbackError(alias: string) | AliasesNotIterable

  /** The exception that leaves the alias loop at `alias`, if any: the
      connection cannot be had (`get_manager(...).get(alias)`), or the
      execution failed and the `rollback` in the handler raised. `prepared` is false when the
      group has no statement, which makes every execution raise. */
  function Escaped(alias: string, prepared: bool, o: WriteOutcome): Option<SaveError>
  {
    match o
    case AcquireFailed => Some(AcquireError(alias))
    case Connected(commits, rollbackRaises) =>
      if !(prepared && commits) && rollbackRaises then Some(RollbackError(alias)) else None
  }

  /** One `_save` call: the group, the rows it drained, what happened at each
      alias tried, and the exception that escaped, if any. */
  datatype Batch = Batch(key: string, table: string, rows: seq<Row>, attempts: seq<Attempt>,
                         failure: Option<SaveError>)

  /** The aliases are tried in list order; an execution that is rolled back
      does not stop the later aliases; the first alias at which an exception
      escapes ends the loop with it; a row set is written exactly where the
      statement exists and the execution commits. */
  ghost predicate FanOut(key: string, aliases: seq<string>, prepared: bool, w: Writer,
                         attempts: seq<Attempt>, failure: Option<SaveError>)
  {
    && |attempts| <= |aliases|
    && (forall i :: 0 <= i < |attempts| ==>
          attempts[i].alias == aliases[i] && w(key, aliases[i]).Connected? &&
          Escaped(aliases[i], prepared, w(key, aliases[i])).None? &&
          (attempts[i].result == Written <==> prepared && w(key, aliases[i]).commits))
    && (failure.None? <==> |attempts| == |aliases|)
    && (failure.Some? ==> failure == Escaped(aliases[|attempts|], prepared, w(key, aliases[|attempts|])))
  }

  /** The alias loop of `MysqlPipeline._save` with its inner `try`. */
  function WriteAll(key: string, aliases: seq<string>, prepared: bool, w: Writer): (r: (seq<Attempt>, Option<SaveError>))
    ensures FanOut(key, aliases, prepared, w, r.0, r.1)
  {
    if |aliases| == 0 then ([], None)
    else
      var alias := aliases[0];
      var o := w(key, alias);
      match Escaped(alias, prepared, o)
      case Some(e) => ([], Some(e))
      case None =>
        var result := if prepared && o.commits then Written else RolledBack;
        var rest := WriteAll(key, aliases[1..], prepared, w);
        ([Attempt(alias, result)] + rest.0, rest.1)
  }

  /** When nothing escapes at any alias, every alias is tried, whatever the
      executions do. */
  lemma AllAliasesTried(key: string, aliases: seq<string>, prepared: bool, w: Writer)
    requires forall i :: 0 <= i < |aliases| ==> Escaped(aliases[i], prepared, w(key, aliases[i])).None?
    ensures var r := WriteAll(key, aliases, prepared, w);
      r.1.None? && |r.0| == |aliases| &&
      forall i :: 0 <= i < |aliases| ==> r.0[i].alias == aliases[i]
  {
  }

  /** Two groups sent to one alias in one sweep can fare differently: one
      commits while the other's execution raises and is rolled back. */
  lemma GroupsFareIndependently()
    ensures
      var w: Writer := (key, alias) => if key == "a" then Connected(true, false) else Connected(false, false);
      WriteAll("a", ["default"], true, w).0 == [Attempt("default", Written)] &&
      WriteAll("b", ["default"], true, w).0 == [Attempt("default", RolledBack)]
  {
  }

  datatype Flushed = Flushed(cache: Cache, batch: Batch)

  /** `MysqlPipeline._save`: write the buffer to each alias in turn, then, in
      `finally`, empty the buffer whatever happened. */
  function Save(c: Cache, key: string, w: Writer): (f: Flushed)
    requires key in c.groups
    ensures f.cache == c.(groups := c.groups[key := c.groups[key].(rows := [])])
    ensures f.batch.key == key && f.batch.table == c.groups[key].table && f.batch.rows == c.groups[key].rows
    ensures c.groups[key].aliases.TextList? ==>
      FanOut(key, c.groups[key].aliases.xs, c.groups[key].sql.Some?, w, f.batch.attempts, f.batch.failure)
    ensures !c.groups[key].aliases.TextList? ==> f.batch.attempts == [] && f.batch.failure == Some(AliasesNotIterable)
  {
    var g := c.groups[key];
    var r := if g.aliases.TextList? then WriteAll(key, g.aliases.xs, g.sql.Some?, w) else ([], Some(AliasesNotIterable));
    Flushed(c.(groups := c.groups[key := g.(rows := [])]), Batch(key, g.table, g.rows, r.0, r.1))
  }

  /** A group left without a statement loses every row it is flushed with:
      no alias reports them written. */
  lemma UnpreparedGroupWritesNothing(c: Cache, key: string, w: Writer)
    requires key in c.groups && c.groups[key].sql.None?
    ensures var b := Save(c, key, w).batch;
      forall i :: 0 <= i < |b.attempts| ==> b.attempts[i].result == RolledBack
  {
  }

  /** `c2` has the groups of `c`, in the same order, each with its buffer
      either kept or emptied. */
  ghost predicate Drains(c: Cache, c2: Cache)
  {
    && c2.order == c.order
    && c2.groups.Keys == c.groups.Keys
    && forall k :: k in c.groups ==> c2.groups[k] == c.groups[k] || c2.groups[k] == c.groups[k].(rows := [])
  }

  lemma DrainsKeepsInvariants(c: Cache, c2: Cache)
    requires Drains(c, c2)
    ensures Valid(c) ==> Valid(c2)
    ensures Prepared(c) ==> Prepared(c2)
  {
    if Valid(c) {
      forall k, r | k in c2.groups && r in c2.groups[k].rows
        ensures |r| == |c2.groups[k].fields|
      {
        assert c2.groups[k] == c.groups[k];
      }
    }
  }

  // ---------------------------------------------------------------------
  // Rows drained, per key

  /** The rows the batches drained from the buffer of `key`, in order. */
  function Drained(batches: seq<Batch>, key: string): seq<Row>
  {
    if |batches| == 0 then []
    else (if batches[0].key == key then batches[0].rows else []) + Drained(batches[1..], key)
  }

  lemma {:induction false} DrainedAppend(a: seq<Batch>, b: seq<Batch>, key: string)
    ensures Drained(a + b, key) == Drained(a, key) + Drained(b, key)
  {
    if |a| > 0 {
      assert (a + b)[1..] == a[1..] + b;
      DrainedAppend(a[1..], b, key);
      var head := if a[0].key == key then a[0].rows else [];
      assert Drained(a + b, key) == head + (Drained(a[1..], key) + Drained(b, key));
      assert head + (Drained(a[1..], key) + Drained(b, key)) == (head + Drained(a[1..], key)) + Drained(b, key);
    } else {
      assert a + b == b;
    }
  }

  /** The cache keys of the batches, in flush order. */
  function BatchKeys(batches: seq<Batch>): seq<string>
  {
    seq(|batches|, i requires 0 <= i < |batches| => batches[i].key)
  }

  lemma BatchKeysCons(b: Batch, bs: seq<Batch>)
    ensures BatchKeys([b] + bs) == [b.key] + BatchKeys(bs)
  {
  }

  /** The keys among `keys` whose buffers hold rows, in the same order. */
  function NonEmpty(c: Cache, keys: seq<string>): seq<string>
  {
    if |keys| == 0 then []
    else (if Buffer(c, keys[0]) != [] then [keys[0]] else []) + NonEmpty(c, keys[1..])
  }

  /** Emptying a buffer outside `keys` does not change which of `keys` are non-empty. */
  lemma {:induction false} NonEmptyUnchanged(c: Cache, c2: Cache, keys: seq<string>, gone: string)
    requires gone !in keys
    requires forall k :: k != gone ==> Buffer(c2, k) == Buffer(c, k)
    ensures NonEmpty(c2, keys) == NonEmpty(c, keys)
  {
    if |keys| > 0 {
      NonEmptyUnchanged(c, c2, keys[1..], gone);
    }
  }

  // ---------------------------------------------------------------------
  // Sweeping all groups

  datatype Swept = Swept(cache: Cache, batches: seq<Batch>, failure: Option<SaveError>)

  /** The loop of `close` and `save_interval`: `_save` every group whose buffer is
      non-empty, in creation order; an exception from `_save` ends the loop. */
  function Sweep(c: Cache, keys: seq<string>, w: Writer): (r: Swept)
    requires forall i :: 0 <= i < |keys| ==> keys[i] in c.groups
    decreases |keys|
  {
    if |keys| == 0 then Swept(c, [], None)
    else
      var k := keys[0];
      if c.groups[k].rows == [] then Sweep(c, keys[1..], w)
      else
        var f := Save(c, k, w);
        if f.batch.failure.Some? then Swept(f.cache, [f.batch], f.batch.failure)
        else
          var rest := Sweep(f.cache, keys[1..], w);
          Swept(rest.cache, [f.batch] + rest.batches, rest.failure)
  }

  /** A sweep keeps every group and the creation order, and only ever empties buffers. */
  lemma {:induction false} SweepDrains(c: Cache, keys: seq<string>, w: Writer)
    requires forall i :: 0 <= i < |keys| ==> keys[i] in c.groups
    ensures Drains(c, Sweep(c, keys, w).cache)
    decreases |keys|
  {
    if |keys| > 0 {
      var k := keys[0];
      if c.groups[k].rows == [] {
        SweepDrains(c, keys[1..], w);
      } else {
        var f := Save(c, k, w);
        if f.batch.failure.None? {
          SweepDrains(f.cache, keys[1..], w);
          DrainsTransitive(c, f.cache, Sweep(f.cache, keys[1..], w).cache);
        }
      }
    }
  }

  lemma DrainsTransitive(c: Cache, c1: Cache, c2: Cache)
    requires Drains(c, c1) && Drains(c1, c2)
    ensures Drains(c, c2)
  {
  }

  /** A sweep drains each buffer at most once: what a buffer held is what the
      sweep's batches took from it followed by what it still holds. */
  lemma {:induction false} SweepConserves(c: Cache, keys: seq<string>, w: Writer, key: string)
    requires forall i :: 0 <= i < |keys| ==> keys[i] in c.groups
    requires forall i, j :: 0 <= i < j < |keys| ==> keys[i] != keys[j]
    ensures var r := Sweep(c, keys, w); Buffer(c, key) == Drained(r.batches, key) + Buffer(r.cache, key)
    decreases |keys|
  {
    if |keys| > 0 {
      var k := keys[0];
      if c.groups[k].rows == [] {
        assert Sweep(c, keys, w) == Sweep(c, keys[1..], w);
        SweepConserves(c, keys[1..], w, key);
      } else {
        var f := Save(c, k, w);
        FlushConserves(c, k, w, key);
        if f.batch.failure.Some? {
          assert Sweep(c, keys, w) == Swept(f.cache, [f.batch], f.batch.failure);
        } else {
          var rest := Sweep(f.cache, keys[1..], w);
          assert Sweep(c, keys, w) == Swept(rest.cache, [f.batch] + rest.batches, rest.failure);
          SweepConserves(f.cache, keys[1..], w, key);
          DrainedAppend([f.batch], rest.batches, key);
          if key == k {
            assert k !in keys[1..];
            SweepLeaves(f.cache, keys[1..], w, key);
          }
        }
      }
    }
  }

  /** Buffers outside the swept keys are untouched. */
  lemma {:induction false} SweepLeaves(c: Cache, keys: seq<string>, w: Writer, key: string)
    requires forall i :: 0 <= i < |keys| ==> keys[i] in c.groups
    requires key !in keys
    ensures Buffer(Sweep(c, keys, w).cache, key) == Buffer(c, key)
    decreases |keys|
  {
    if |keys| > 0 {
      var k := keys[0];
      if c.groups[k].rows == [] {
        SweepLeaves(c, keys[1..], w, key);
      } else {
        var f := Save(c, k, w);
        if f.batch.failure.None? {
          SweepLeaves(f.cache, keys[1..], w, key);
        }
      }
    }
  }

  /** `_save` reads only its own group: two caches that agree on it flush it alike. */
  lemma SaveSameGroup(c: Cache, c2: Cache, key: string, w: Writer)
    requires key in c.groups && key in c2.groups && c2.groups[key] == c.groups[key]
    ensures Save(c2, key, w).batch == Save(c, key, w).batch
  {
  }

  /** Each batch of a sweep is the `_save` of one of the swept groups, as the
      group stood before the sweep: its whole, non-empty buffer, written to
      its aliases in turn. */
  lemma {:induction false} SweepBatch(c: Cache, keys: seq<string>, w: Writer, i: nat)
    requires forall j :: 0 <= j < |keys| ==> keys[j] in c.groups
    requires forall j, l :: 0 <= j < l < |keys| ==> keys[j] != keys[l]
    requires i < |Sweep(c, keys, w).batches|
    ensures var b := Sweep(c, keys, w).batches[i];
      b.key in keys && b.rows == Buffer(c, b.key) && b.rows != []
    ensures var b := Sweep(c, keys, w).batches[i];
      b.key in c.groups && b == Save(c, b.key, w).batch
    decreases |keys|
  {
    var k := keys[0];
    if c.groups[k].rows == [] {
      SweepBatch(c, keys[1..], w, i);
      var b := Sweep(c, keys[1..], w).batches[i];
      assert b.key in keys by {
        var j :| 0 <= j < |keys[1..]| && keys[1..][j] == b.key;
        assert keys[j + 1] == b.key;
      }
    } else {
      var f := Save(c, k, w);
      if f.batch.failure.None? && i > 0 {
        var rest := Sweep(f.cache, keys[1..], w);
        assert Sweep(c, keys, w).batches[i] == rest.batches[i - 1];
        SweepBatch(f.cache, keys[1..], w, i - 1);
        var b := rest.batches[i - 1];
        var j :| 0 <= j < |keys[1..]| && keys[1..][j] == b.key;
        assert keys[j + 1] == b.key;
        assert b.key != k;
        SaveSameGroup(c, f.cache, b.key, w);
      }
    }
  }

  /** The batches are `_save` calls on groups of `c` as they stood before the
      sweep; only the last may carry an exception, and the sweep raises
      exactly the exception of its last batch. */
  ghost predicate SavesInTurn(c: Cache, w: Writer, batches: seq<Batch>, failure: Option<SaveError>)
  {
    && (forall i :: 0 <= i < |batches| ==> batches[i].key in c.groups && batches[i] == Save(c, batches[i].key, w).batch)
    && (forall i :: 0 <= i < |batches| - 1 ==> batches[i].failure.None?)
    && (failure.Some? <==> |batches| > 0 && batches[|batches| - 1].failure.Some?)
    && (failure.Some? ==> failure == batches[|batches| - 1].failure)
  }

  /** A sweep is a run of `_save` calls that ends at the first exception. */
  lemma SweepSaves(c: Cache, keys: seq<string>, w: Writer)
    requires forall j :: 0 <= j < |keys| ==> keys[j] in c.groups
    requires forall j, l :: 0 <= j < l < |keys| ==> keys[j] != keys[l]
    ensures var r := Sweep(c, keys, w); SavesInTurn(c, w, r.batches, r.failure)
  {
    var r := Sweep(c, keys, w);
    forall i | 0 <= i < |r.batches|
      ensures r.batches[i].key in c.groups && r.batches[i] == Save(c, r.batches[i].key, w).batch
    {
      SweepBatch(c, keys, w, i);
    }
    SweepStopsAtFailure(c, keys, w);
    SweepFailureIsLast(c, keys, w);
  }

  /** A sweep stops at the first exception: a batch that carries one is
      the last batch of the sweep. */
  lemma {:induction false} SweepStopsAtFailure(c: Cache, keys: seq<string>, w: Writer)
    requires forall i :: 0 <= i < |keys| ==> keys[i] in c.groups
    ensures forall i :: 0 <= i < |Sweep(c, keys, w).batches| && Sweep(c, keys, w).batches[i].failure.Some? ==>
      i == |Sweep(c, keys, w).batches| - 1
    decreases |keys|
  {
    if |keys| > 0 {
      var k := keys[0];
      if c.groups[k].rows == [] {
        assert Sweep(c, keys, w) == Sweep(c, keys[1..], w);
        SweepStopsAtFailure(c, keys[1..], w);
      } else {
        var f := Save(c, k, w);
        if f.batch.failure.None? {
          var rest := Sweep(f.cache, keys[1..], w);
          assert Sweep(c, keys, w) == Swept(rest.cache, [f.batch] + rest.batches, rest.failure);
          SweepStopsAtFailure(f.cache, keys[1..], w);
          var bs := [f.batch] + rest.batches;
          forall i | 0 < i < |bs| && bs[i].failure.Some?
            ensures i == |bs| - 1
          {
            assert bs[i] == rest.batches[i - 1];
          }
        }
      }
    }
  }

  /** The exception a sweep raises is the one its last batch carries; a
      sweep without one has no failing batch. */
  lemma {:induction false} SweepFailureIsLast(c: Cache, keys: seq<string>, w: Writer)
    requires forall i :: 0 <= i < |keys| ==> keys[i] in c.groups
    ensures var r := Sweep(c, keys, w);
      && (r.failure.Some? ==> |r.batches| > 0 && r.batches[|r.batches| - 1].failure == r.failure)
      && (r.failure.None? ==> forall i :: 0 <= i < |r.batches| ==> r.batches[i].failure.None?)
    decreases |keys|
  {
    if |keys| > 0 {
      var k := keys[0];
      if c.groups[k].rows == [] {
        assert Sweep(c, keys, w) == Sweep(c, keys[1..], w);
        SweepFailureIsLast(c, keys[1..], w);
      } else {
        var f := Save(c, k, w);
        if f.batch.failure.None? {
          var rest := Sweep(f.cache, keys[1..], w);
          assert Sweep(c, keys, w) == Swept(rest.cache, [f.batch] + rest.batches, rest.failure);
          SweepFailureIsLast(f.cache, keys[1..], w);
          var bs := [f.batch] + rest.batches;
          if rest.failure.None? {
            forall i | 0 <= i < |bs|
              ensures bs[i].failure.None?
            {
              if i > 0 {
                assert bs[i] == rest.batches[i - 1];
              }
            }
          }
        } else {
          assert Sweep(c, keys, w) == Swept(f.cache, [f.batch], f.batch.failure);
        }
      }
    }
  }

  /** A sweep that raises nothing flushes exactly the non-empty groups among
      the swept keys, in their order, and leaves all of them empty. */
  lemma {:induction false} SweepComplete(c: Cache, keys: seq<string>, w: Writer)
    requires forall i :: 0 <= i < |keys| ==> keys[i] in c.groups
    requires forall i, j :: 0 <= i < j < |keys| ==> keys[i] != keys[j]
    ensures var r := Sweep(c, keys, w);
      r.failure.None? ==>
        BatchKeys(r.batches) == NonEmpty(c, keys) &&
        forall i :: 0 <= i < |keys| ==> Buffer(r.cache, keys[i]) == []
    decreases |keys|
  {
    if |keys| > 0 {
      var k := keys[0];
      var r := Sweep(c, keys, w);
      if c.groups[k].rows == [] {
        SweepComplete(c, keys[1..], w);
        if r.failure.None? {
          assert Buffer(c, k) == [];
          SweepLeaves(c, keys[1..], w, k);
          assert forall i :: 1 <= i < |keys| ==> keys[i] == keys[1..][i - 1];
        }
      } else {
        var f := Save(c, k, w);
        if f.batch.failure.None? {
          SweepComplete(f.cache, keys[1..], w);
          var rest := Sweep(f.cache, keys[1..], w);
          if r.failure.None? {
            assert k !in keys[1..];
            NonEmptyUnchanged(c, f.cache, keys[1..], k);
            assert r.batches == [f.batch] + rest.batches;
            BatchKeysCons(f.batch, rest.batches);
            SweepConserves(f.cache, keys[1..], w, k);
            assert forall i :: 1 <= i < |keys| ==> keys[i] == keys[1..][i - 1];
          }
        }
      }
    }
  }

  // ---------------------------------------------------------------------
  // Transitions

  datatype PipelineError = Refused(cacheError: CacheError) | WriteFailed(saveError: SaveError)

  /** One atomic transition: the pipeline afterwards, the batches flushed,
      the row admitted (if any) and the exception raised (if any). */
  datatype Step = Step(pipeline: Pipeline, batches: seq<Batch>, admitted: Option<Admitted>,
                       error: Option<PipelineError>)

  /** `save_item`: admit the item, then flush its group when the count
      returned reaches `cache_num`. Only the cache changes. */
  function SaveItem(p: Pipeline, item: Item, w: Writer): (st: Step)
    requires Inv(p)
    ensures Inv(st.pipeline)
    ensures st.pipeline == p.(cache := st.pipeline.cache)
  {
    var a := Admit(p.dbType, p.cache, item);
    match a.outcome
    case Err(e) => Step(p, [], None, Some(Refused(e)))
    case Ok(ad) =>
      AdmitKeepsOthersBelow(p, item);
      if ad.count >= p.cacheNum then
        var f := Save(a.cache, ad.key, w);
        FlushKeepsInv(p, a.cache, ad.key, f.cache);
        var error := if f.batch.failure.Some? then Some(WriteFailed(f.batch.failure.value)) else None;
        Step(p.(cache := f.cache), [f.batch], Some(ad), error)
      else
        Step(p.(cache := a.cache), [], Some(ad), None)
  }

  /** Admitting a row leaves every other buffer below the threshold. */
  lemma AdmitKeepsOthersBelow(p: Pipeline, item: Item)
    requires Inv(p)
    ensures var a := Admit(p.dbType, p.cache, item);
      a.outcome.Ok? ==>
        forall k :: k in a.cache.groups && k != a.outcome.value.key ==>
          |a.cache.groups[k].rows| < p.cacheNum || a.cache.groups[k].rows == []
  {
  }

  /** Emptying the one buffer that may have reached the threshold restores the invariant. */
  lemma FlushKeepsInv(p: Pipeline, c: Cache, key: string, c2: Cache)
    requires Valid(c) && Prepared(c) && key in c.groups
    requires forall k :: k in c.groups && k != key ==> |c.groups[k].rows| < p.cacheNum || c.groups[k].rows == []
    requires c2 == c.(groups := c.groups[key := c.groups[key].(rows := [])])
    ensures Inv(p.(cache := c2))
  {
    assert Drains(c, c2);
    DrainsKeepsInvariants(c, c2);
  }

  /** A refused item changes nothing and raises the cache's error. */
  lemma SaveItemRefused(p: Pipeline, item: Item, w: Writer)
    requires Inv(p)
    ensures var st := SaveItem(p, item, w);
      var a := Admit(p.dbType, p.cache, item);
      (st.admitted.None? <==> a.outcome.Err?) &&
      (a.outcome.Err? ==> st.pipeline == p && st.batches == [] && st.error == Some(Refused(a.outcome.error)))
  {
  }

  /** An admitted item is flushed with its group exactly when the group's
      count reaches `cache_num`; an exception can only come from that flush. */
  lemma SaveItemAccepted(p: Pipeline, item: Item, w: Writer)
    requires Inv(p)
    ensures var st := SaveItem(p, item, w);
      var a := Admit(p.dbType, p.cache, item);
      a.outcome.Ok? ==>
        && st.admitted == Some(a.outcome.value)
        && |st.batches| <= 1
        && (|st.batches| == 1 <==> a.outcome.value.count >= p.cacheNum)
        && (st.error.Some? <==> |st.batches| == 1 && st.batches[0].failure.Some?)
  {
  }

  /** The rows a step admitted under `key`. */
  function AdmittedRows(admitted: Option<Admitted>, key: string): seq<Row>
  {
    if admitted.Some? && admitted.value.key == key then [admitted.value.row] else []
  }

  /** `save_item` appends the row to its group's buffer and, when the
      threshold is reached, drains that buffer; no other buffer changes:
      the rows buffered under `key` before, plus the one admitted there, are
      the rows flushed from `key` followed by those still buffered. */
  lemma SaveItemConserves(p: Pipeline, item: Item, w: Writer, key: string)
    requires Inv(p)
    ensures var st := SaveItem(p, item, w);
      Buffer(p.cache, key) + AdmittedRows(st.admitted, key) == Drained(st.batches, key) + Buffer(st.pipeline.cache, key)
  {
    var a := Admit(p.dbType, p.cache, item);
    if a.outcome.Err? {
      RefusedConserves(p, item, w, key, a);
    } else if a.outcome.value.count >= p.cacheNum {
      FlushedConserves(p, item, w, key, a);
    } else {
      BufferedConserves(p, item, w, key, a);
    }
  }

  /** What a `save_item` step consists of, given the admission it makes. */
  lemma SaveItemUnfolds(p: Pipeline, item: Item, w: Writer, a: Admission)
    requires Inv(p) && a == Admit(p.dbType, p.cache, item)
    ensures a.outcome.Err? ==> SaveItem(p, item, w) == Step(p, [], None, Some(Refused(a.outcome.error)))
    ensures a.outcome.Ok? && a.outcome.value.count < p.cacheNum ==>
      && SaveItem(p, item, w).pipeline.cache == a.cache
      && SaveItem(p, item, w).batches == []
      && SaveItem(p, item, w).admitted == Some(a.outcome.value)
    ensures a.outcome.Ok? && a.outcome.value.count >= p.cacheNum ==>
      var f := Save(a.cache, a.outcome.value.key, w);
      && SaveItem(p, item, w).pipeline.cache == f.cache
      && SaveItem(p, item, w).batches == [f.batch]
      && SaveItem(p, item, w).admitted == Some(a.outcome.value)
  {
  }

  lemma RefusedConserves(p: Pipeline, item: Item, w: Writer, key: string, a: Admission)
    requires Inv(p) && a == Admit(p.dbType, p.cache, item) && a.outcome.Err?
    ensures var st := SaveItem(p, item, w);
      Buffer(p.cache, key) + AdmittedRows(st.admitted, key) == Drained(st.batches, key) + Buffer(st.pipeline.cache, key)
  {
    SaveItemUnfolds(p, item, w, a);
    assert Buffer(p.cache, key) + [] == [] + Buffer(p.cache, key);
  }

  lemma BufferedConserves(p: Pipeline, item: Item, w: Writer, key: string, a: Admission)
    requires Inv(p) && a == Admit(p.dbType, p.cache, item) && a.outcome.Ok?
    requires a.outcome.value.count < p.cacheNum
    ensures var st := SaveItem(p, item, w);
      Buffer(p.cache, key) + AdmittedRows(st.admitted, key) == Drained(st.batches, key) + Buffer(st.pipeline.cache, key)
  {
    SaveItemUnfolds(p, item, w, a);
    AdmitAppends(p.cache, a, key);
    assert Drained([], key) == [];
  }

  lemma FlushedConserves(p: Pipeline, item: Item, w: Writer, key: string, a: Admission)
    requires Inv(p) && a == Admit(p.dbType, p.cache, item) && a.outcome.Ok?
    requires a.outcome.value.count >= p.cacheNum
    ensures var st := SaveItem(p, item, w);
      Buffer(p.cache, key) + AdmittedRows(st.admitted, key) == Drained(st.batches, key) + Buffer(st.pipeline.cache, key)
  {
    SaveItemUnfolds(p, item, w, a);
    AdmitAppends(p.cache, a, key);
    FlushConserves(a.cache, a.outcome.value.key, w, key);
  }

  /** A flush takes the whole buffer of its own key and touches no other. */
  lemma FlushConserves(c: Cache, flushed: string, w: Writer, key: string)
    requires flushed in c.groups
    ensures var f := Save(c, flushed, w); Buffer(c, key) == Drained([f.batch], key) + Buffer(f.cache, key)
  {
    var f := Save(c, flushed, w);
    assert Drained([f.batch], key) == (if flushed == key then f.batch.rows else []) + [];
    if flushed == key {
      assert Buffer(f.cache, key) == [];
    } else {
      assert Buffer(f.cache, key) == Buffer(c, key);
    }
  }

  /** Admission adds the row to its own group's buffer and to no other. */
  lemma AdmitAppends(c: Cache, a: Admission, key: string)
    requires a.outcome.Ok? && AppendedTo(c, a.cache, a.outcome.value.key, a.outcome.value.row)
    ensures Buffer(a.cache, key) == Buffer(c, key) + AdmittedRows(Some(a.outcome.value), key)
  {
  }

  /** A flush triggered by `save_item` carries the whole buffer of the
      admitted row's group, that row last. */
  lemma SaveItemFlushesItsGroup(p: Pipeline, item: Item, w: Writer)
    requires Inv(p)
    ensures var st := SaveItem(p, item, w);
      st.admitted.Some? && |st.batches| == 1 ==>
        st.batches[0].key == st.admitted.value.key &&
        st.batches[0].rows == Buffer(p.cache, st.admitted.value.key) + [st.admitted.value.row]
  {
  }

  /** `process_item`: the item comes back, without its control keys, unless
      saving it raised. */
  function ProcessItem(p: Pipeline, item: Item, w: Writer): (r: (Step, Option<Item>))
    requires Inv(p)
    ensures r.0 == SaveItem(p, item, w)
    ensures r.1.Some? <==> r.0.error.None?
    ensures r.1.Some? ==> r.1.value == Without(item, ControlKeys)
  {
    var st := SaveItem(p, item, w);
    if st.error.Some? then (st, None)
    else
      SaveItemRefused(p, item, w);
      (st, Some(ParseControl(item).item))
  }

  /** The sweep behind `close` and `save_interval`, over every group in
      creation order. It needs no statement in any group: a group left without
      one is flushed like any other, and every execution for it raises. */
  function Sweeping(p: Pipeline, w: Writer): (r: Swept)
    requires Valid(p.cache)
    ensures Valid(r.cache) && Drains(p.cache, r.cache)
    ensures Inv(p) ==> Inv(p.(cache := r.cache))
    ensures SavesInTurn(p.cache, w, r.batches, r.failure)
    ensures r.failure.None? ==> forall k :: k in r.cache.groups ==> r.cache.groups[k].rows == []
    ensures r.failure.None? ==> BatchKeys(r.batches) == NonEmpty(p.cache, p.cache.order)
  {
    SweepAll(p.cache, w);
    var r := Sweep(p.cache, p.cache.order, w);
    DrainsKeepsInvariants(p.cache, r.cache);
    r
  }

  /** The sweep over a whole cache, in creation order. */
  lemma SweepAll(c: Cache, w: Writer)
    requires Valid(c)
    ensures forall i :: 0 <= i < |c.order| ==> c.order[i] in c.groups
    ensures var r := Sweep(c, c.order, w);
      && Drains(c, r.cache)
      && SavesInTurn(c, w, r.batches, r.failure)
      && (r.failure.None? ==> forall k :: k in r.cache.groups ==> r.cache.groups[k].rows == [])
      && (r.failure.None? ==> BatchKeys(r.batches) == NonEmpty(c, c.order))
  {
    var r := Sweep(c, c.order, w);
    SweepDrains(c, c.order, w);
    SweepComplete(c, c.order, w);
    SweepSaves(c, c.order, w);
    assert forall k :: k in r.cache.groups ==> k in c.order;
  }

  function SweepStepOf(p: Pipeline, r: Swept, timer: bool): Step
  {
    Step(p.(cache := r.cache, timer := timer), r.batches, None,
         if r.failure.Some? then Some(WriteFailed(r.failure.value)) else None)
  }

  /** `save_interval` firing: when the task is scheduled, sweep; the task
      schedules its successor only if the sweep raised nothing. */
  function SaveInterval(p: Pipeline, w: Writer): (st: Step)
    requires Valid(p.cache)
    ensures Valid(st.pipeline.cache) && st.admitted.None?
    ensures Inv(p) ==> Inv(st.pipeline)
    ensures st.error.Some? ==> st.error.value.WriteFailed?
    ensures SavesInTurn(p.cache, w, st.batches, if st.error.Some? then Some(st.error.value.saveError) else None)
    ensures st.pipeline == p.(cache := st.pipeline.cache, timer := st.pipeline.timer)
    ensures !p.timer ==> st.pipeline == p && st.batches == [] && st.error.None?
    ensures p.timer ==> (st.pipeline.timer <==> st.error.None?)
    ensures p.timer && st.error.None? ==>
      (forall k :: k in st.pipeline.cache.groups ==> st.pipeline.cache.groups[k].rows == []) &&
      BatchKeys(st.batches) == NonEmpty(p.cache, p.cache.order)
  {
    if !p.timer then Step(p, [], None, None)
    else
      var r := Sweeping(p, w);
      SweepStepOf(p, r, r.failure.None?)
  }

  /** `close_spider`: cancel the sweep task, then flush every non-empty group. */
  function Close(p: Pipeline, w: Writer): (st: Step)
    requires Valid(p.cache)
    ensures Valid(st.pipeline.cache) && !st.pipeline.timer && st.admitted.None?
    ensures Inv(p) ==> Inv(st.pipeline)
    ensures st.error.Some? ==> st.error.value.WriteFailed?
    ensures SavesInTurn(p.cache, w, st.batches, if st.error.Some? then Some(st.error.value.saveError) else None)
    ensures st.pipeline == p.(cache := st.pipeline.cache, timer := false)
    ensures st.error.None? ==>
      (forall k :: k in st.pipeline.cache.groups ==> st.pipeline.cache.groups[k].rows == []) &&
      BatchKeys(st.batches) == NonEmpty(p.cache, p.cache.order)
  {
    var r := Sweeping(p, w);
    SweepStepOf(p, r, false)
  }

  /** Opening arms the sweep: before it, a firing does nothing; after it, a
      firing that raises nothing flushes every non-empty group in creation
      order and stays scheduled. */
  lemma OpenArmsSweep(p: Pipeline, w: Writer)
    requires Valid(p.cache) && !p.timer
    ensures SaveInterval(p, w).batches == [] && SaveInterval(p, w).pipeline == p
    ensures var st := SaveInterval(Open(p), w);
      st.error.None? ==>
        && st.pipeline.timer
        && BatchKeys(st.batches) == NonEmpty(p.cache, p.cache.order)
        && forall k :: k in st.pipeline.cache.groups ==> st.pipeline.cache.groups[k].rows == []
  {
  }

  /** After `close_spider` the sweep task does no further work. */
  lemma NoSweepAfterClose(p: Pipeline, w: Writer, w2: Writer)
    requires Valid(p.cache)
    ensures var closed := Close(p, w).pipeline;
      var tick := SaveInterval(closed, w2);
      tick.pipeline == closed && tick.batches == []
  {
  }

  /** What a sweep took from a buffer and what it left there make up the
      buffer it found. */
  lemma SweepingConserves(p: Pipeline, w: Writer, key: string)
    requires Valid(p.cache)
    ensures var r := Sweeping(p, w); Buffer(p.cache, key) == Drained(r.batches, key) + Buffer(r.cache, key)
  {
    SweepConserves(p.cache, p.cache.order, w, key);
  }

  // ---------------------------------------------------------------------
  // Runs of the pipeline

  /** The calls the framework makes on an open pipeline, each with the
      database's behaviour during that call. */
  datatype Op = Accept(item: Item, w: Writer) | Tick(w: Writer) | Shutdown(w: Writer)

  /** One call, under the lock. */
  function Apply(p: Pipeline, op: Op): (st: Step)
    requires Inv(p)
    ensures Inv(st.pipeline)
    ensures st.pipeline.dbType == p.dbType && st.pipeline.cacheNum == p.cacheNum
  {
    match op
    case Accept(item, w) => SaveItem(p, item, w)
    case Tick(w) => SaveInterval(p, w)
    case Shutdown(w) => Close(p, w)
  }

  /** Each call keeps the rows of every buffer in order: the buffer before,
      plus the row admitted into it, is the rows flushed from it followed by
      the buffer after. */
  lemma ApplyConserves(p: Pipeline, op: Op, key: string)
    requires Inv(p)
    ensures var st := Apply(p, op);
      Buffer(p.cache, key) + AdmittedRows(st.admitted, key) == Drained(st.batches, key) + Buffer(st.pipeline.cache, key)
  {
    match op
    case Accept(item, w) => SaveItemConserves(p, item, w, key);
    case Tick(w) =>
      if p.timer {
        SweepingConserves(p, w, key);
      } else {
        assert Buffer(p.cache, key) + [] == [] + Buffer(p.cache, key);
      }
    case Shutdown(w) => SweepingConserves(p, w, key);
  }

  datatype Trace = Trace(last: Pipeline, steps: seq<Step>)

  /** The calls applied in order; an exception from one call does not stop
      the framework from making the next. */
  function Run(p: Pipeline, ops: seq<Op>): (t: Trace)
    requires Inv(p)
    ensures Inv(t.last) && |t.steps| == |ops|
    ensures t.last.dbType == p.dbType && t.last.cacheNum == p.cacheNum
    decreases |ops|
  {
    if |ops| == 0 then Trace(p, [])
    else
      var st := Apply(p, ops[0]);
      var rest := Run(st.pipeline, ops[1..]);
      Trace(rest.last, [st] + rest.steps)
  }

  /** Every row admitted under `key` along the steps, in order. */
  function AllAdmitted(steps: seq<Step>, key: string): seq<Row>
  {
    if |steps| == 0 then [] else AdmittedRows(steps[0].admitted, key) + AllAdmitted(steps[1..], key)
  }

  /** Every row flushed from `key` along the steps, in order. */
  function AllDrained(steps: seq<Step>, key: string): seq<Row>
  {
    if |steps| == 0 then [] else Drained(steps[0].batches, key) + AllDrained(steps[1..], key)
  }

  /** No row is lost, duplicated or reordered by the buffering: along any
      run, the rows a group held at the start followed by every row admitted
      into it are exactly the rows flushed from it followed by the rows it
      still holds. A flush whose writes were rolled back still counts as a
      flush: the buffer is emptied in `finally`. */
  lemma {:induction false} RunConserves(p: Pipeline, ops: seq<Op>, key: string)
    requires Inv(p)
    ensures var t := Run(p, ops);
      Buffer(p.cache, key) + AllAdmitted(t.steps, key) == AllDrained(t.steps, key) + Buffer(t.last.cache, key)
    decreases |ops|
  {
    if |ops| > 0 {
      var st := Apply(p, ops[0]);
      var rest := Run(st.pipeline, ops[1..]);
      var t := Run(p, ops);
      assert t == Trace(rest.last, [st] + rest.steps);
      assert t.steps[0] == st && t.steps[1..] == rest.steps;
      ApplyConserves(p, ops[0], key);
      RunConserves(st.pipeline, ops[1..], key);
      var b0, a0, d0 := Buffer(p.cache, key), AdmittedRows(st.admitted, key), Drained(st.batches, key);
      var b1, bn := Buffer(st.pipeline.cache, key), Buffer(rest.last.cache, key);
      var ads, ds := AllAdmitted(rest.steps, key), AllDrained(rest.steps, key);
      assert AllAdmitted(t.steps, key) == a0 + ads;
      assert AllDrained(t.steps, key) == d0 + ds;
      Telescope(b0, a0, d0, b1, ads, ds, bn);
    } else {
      assert Buffer(p.cache, key) + [] == [] + Buffer(p.cache, key);
    }
  }

  /** Two consecutive conservation steps compose into one. */
  lemma Telescope(b0: seq<Row>, a0: seq<Row>, d0: seq<Row>, b1: seq<Row>, a1: seq<Row>, d1: seq<Row>, b2: seq<Row>)
    requires b0 + a0 == d0 + b1 && b1 + a1 == d1 + b2
    ensures b0 + (a0 + a1) == (d0 + d1) + b2
  {
    calc {
      b0 + (a0 + a1);
      (b0 + a0) + a1;
      (d0 + b1) + a1;
      d0 + (b1 + a1);
    }
  }

  /** A run that opens the pipeline and ends with a clean `close_spider`
      flushes every row admitted along it, in order. */
  lemma EveryAdmittedRowFlushed(settings: Settings, ops: seq<Op>, w: Writer, key: string)
    ensures var t := Run(Open(FromSettings(settings)), ops + [Shutdown(w)]);
      t.steps[|ops|].error.None? ==> AllAdmitted(t.steps, key) == AllDrained(t.steps, key)
  {
    var p := Open(FromSettings(settings));
    var t := Run(p, ops + [Shutdown(w)]);
    RunConserves(p, ops + [Shutdown(w)], key);
    RunLast(p, ops, Shutdown(w));
    var before := Run(p, ops).last;
    if t.steps[|ops|].error.None? {
      var st := Close(before, w);
      assert t.last == st.pipeline && st.error.None?;
      assert Buffer(t.last.cache, key) == [];
      assert Buffer(p.cache, key) == [];
      assert [] + AllAdmitted(t.steps, key) == AllAdmitted(t.steps, key);
      assert AllDrained(t.steps, key) + [] == AllDrained(t.steps, key);
    }
  }

  /** The last step of a run is the last call applied to the state the run
      had reached before it. */
  lemma {:induction false} RunLast(p: Pipeline, ops: seq<Op>, op: Op)
    requires Inv(p)
    ensures var t := Run(p, ops + [op]);
      var before := Run(p, ops);
      t.steps[|ops|] == Apply(before.last, op) && t.last == Apply(before.last, op).pipeline
    decreases |ops|
  {
    if |ops| > 0 {
      var st := Apply(p, ops[0]);
      assert (ops + [op])[0] == ops[0];
      assert (ops + [op])[1..] == ops[1..] + [op];
      var rest := Run(st.pipeline, ops[1..] + [op]);
      var restBefore := Run(st.pipeline, ops[1..]);
      assert Run(p, ops + [op]) == Trace(rest.last, [st] + rest.steps);
      assert Run(p, ops) == Trace(restBefore.last, [st] + restBefore.steps);
      RunLast(st.pipeline, ops[1..], op);
      assert ([st] + rest.steps)[|ops|] == rest.steps[|ops| - 1];
    } else {
      assert ops + [op] == [op];
      assert Run(p, [op]) == Trace(Run(Apply(p, op).pipeline, []).last, [Apply(p, op)] + []);
    }
  }
}

=== FILE: item_cache.dfy ===
/** The item cache of the DB pipeline: it strips the four control keys from
    an item, derives the cache key of the item's shape, creates the group for
    that key the first time it is seen, and appends the item's row to the
    group's buffer with values ordered by the group's field list. */
module ItemCache {
  import opened Results
  import opened Text
  import opened Items
  import SqlFormat

  const TableKey := "save_table_name"
  const InsertTypeKey := "save_insert_type"
  const UpdateFieldsKey := "save_update_fields"
  const AliasKey := "save_db_alias"

  /** The keys that route an item and are never written as columns. */
  const ControlKeys: set<string> := {TableKey} + {InsertTypeKey} + {UpdateFieldsKey} + {AliasKey}

  type Row = seq<Value>

  /** One buffer per cache key: where its rows go, in which column order,
      with which statement (None when building it failed), and the rows
      buffered so far in arrival order. */
  datatype Group = Group(table: string, fields: seq<string>, aliases: Value,
                         sql: Option<string>, rows: seq<Row>)

  /** The groups, with their keys in the order the groups were created (the
      iteration order of the Python dicts). */
  datatype Cache = Cache(order: seq<string>, groups: map<string, Group>)

  function EmptyCache(): Cache
  {
    Cache([], map[])
  }

  /** The exceptions admission can raise. */
  datatype CacheError =
    | MissingTable                  // `item.pop('save_table_name')` raises KeyError
    | TableIsNone                   // `please set save_table_name`
    | BadType(key: string)          // a control value of the wrong type breaks the key concatenation
    | Unsupported(name: string)     // no statement builder for `<db type>_<insert type>`
    | MissingField(field: string)   // the item lacks a field of the group its key selects

  ghost predicate Valid(c: Cache)
  {
    && (forall i, j :: 0 <= i < j < |c.order| ==> c.order[i] != c.order[j])
    && (forall k :: k in c.groups <==> k in c.order)
    && (forall k, r :: k in c.groups && r in c.groups[k].rows ==> |r| == |c.groups[k].fields|)
  }

  /** Every group has its statement. */
  ghost predicate Prepared(c: Cache)
  {
    forall k :: k in c.groups ==> c.groups[k].sql.Some?
  }

  /** The rows buffered under `key` (none for an unknown key). */
  function Buffer(c: Cache, key: string): seq<Row>
  {
    if key in c.groups then c.groups[key].rows else []
  }

  // ---------------------------------------------------------------------
  // Control keys and the cache key

  /** Where an item goes, read from its control keys with their defaults. */
  datatype Shape = Shape(table: string, insertType: string, updateFields: seq<string>,
                         aliases: Value, fields: seq<string>)

  /** The item after the pops that ran, and its shape or the exception raised. */
  datatype Parsed = Parsed(item: Item, shape: Result<Shape, CacheError>)

  /** A string alias becomes a one-element list; anything else is kept as given. */
  function AliasList(v: Value): Value
  {
    if v.Text? then TextList([v.s]) else v
  }

  /** The start of `parse_item_to_cache`: pop the four control keys with their defaults and take the
      remaining keys as the field list. The values are read from the item as
      given, which is what the successive pops see (`PopsInOrder`). A missing
      table name raises before anything is popped and a None one right after
      its own pop; the type checks come in the order in which the key
      concatenation that builds the cache key would raise. */
  function ParseControl(item: Item): (p: Parsed)
    ensures TableKey !in Keys(item) ==> p == Parsed(item, Err(MissingTable))
    ensures Get(item, TableKey) == Some(Null) ==> p == Parsed(Without(item, {TableKey}), Err(TableIsNone))
    ensures TableKey in Keys(item) && Get(item, TableKey) != Some(Null) ==> p.item == Without(item, ControlKeys)
    ensures p.shape.Ok? ==> p.shape.value.fields == Keys(p.item)
    ensures p.shape.Ok? ==> forall i :: 0 <= i < |p.shape.value.fields| ==> p.shape.value.fields[i] !in ControlKeys
    ensures p.shape.Ok? ==> p.shape.value.aliases == AliasList(Get(item, AliasKey).GetOr(TextList(["default"])))
    ensures p.shape.Ok? ==>
      && Get(item, TableKey) == Some(Text(p.shape.value.table))
      && Get(item, InsertTypeKey).GetOr(Text("insert")) == Text(p.shape.value.insertType)
      && Get(item, UpdateFieldsKey).GetOr(TextList([])) == TextList(p.shape.value.updateFields)
    ensures p.shape.Ok? <==>
      && Get(item, TableKey).Some? && Get(item, TableKey).value.Text?
      && Get(item, InsertTypeKey).GetOr(Text("insert")).Text?
      && Get(item, UpdateFieldsKey).GetOr(TextList([])).TextList?
  {
    var table := Get(item, TableKey);
    if table.None? then Parsed(item, Err(MissingTable))
    else if table.value.Null? then Parsed(Without(item, {TableKey}), Err(TableIsNone))
    else
      var insertType := Get(item, InsertTypeKey).GetOr(Text("insert"));
      var updateFields := Get(item, UpdateFieldsKey).GetOr(TextList([]));
      var aliases := AliasList(Get(item, AliasKey).GetOr(TextList(["default"])));
      var rest := Without(item, ControlKeys);
      assert forall i :: 0 <= i < |rest| ==> rest[i] in rest;
      if !updateFields.TextList? then Parsed(rest, Err(BadType(UpdateFieldsKey)))
      else if !insertType.Text? then Parsed(rest, Err(BadType(InsertTypeKey)))
      else if !table.value.Text? then Parsed(rest, Err(BadType(TableKey)))
      else Parsed(rest, Ok(Shape(table.value.s, insertType.s, updateFields.xs, aliases, Keys(rest))))
  }

  /** Which control value a `BadType` names: the update fields are checked
      first, then the insert type, then the table, the order in which the
      concatenation that builds the cache key meets them. */
  lemma BadTypeOrder(item: Item)
    requires Get(item, TableKey).Some? && Get(item, TableKey) != Some(Null)
    ensures var e := ParseControl(item).shape;
      var updateFields := Get(item, UpdateFieldsKey).GetOr(TextList([]));
      var insertType := Get(item, InsertTypeKey).GetOr(Text("insert"));
      && (e == Err(BadType(UpdateFieldsKey)) <==> !updateFields.TextList?)
      && (e == Err(BadType(InsertTypeKey)) <==> updateFields.TextList? && !insertType.Text?)
      && (e == Err(BadType(TableKey)) <==>
            updateFields.TextList? && insertType.Text? && !Get(item, TableKey).value.Text?)
  {
  }

  /** Popping the control keys one after another, in the order `parse_item_to_cache` pops them,
      reads the values the item holds and leaves the item without all four. */
  lemma PopsInOrder(item: Item)
    requires DistinctKeys(item)
    ensures
      var item1 := Without(item, {TableKey});
      var item2 := Without(item1, {InsertTypeKey});
      var item3 := Without(item2, {UpdateFieldsKey});
      && Get(item1, InsertTypeKey) == Get(item, InsertTypeKey)
      && Get(item2, UpdateFieldsKey) == Get(item, UpdateFieldsKey)
      && Get(item3, AliasKey) == Get(item, AliasKey)
      && Without(item3, {AliasKey}) == Without(item, ControlKeys)
  {
    GetWithout(item, {TableKey}, InsertTypeKey);
    WithoutWithout(item, {TableKey}, {InsertTypeKey});
    GetWithout(item, {TableKey} + {InsertTypeKey}, UpdateFieldsKey);
    WithoutWithout(item, {TableKey} + {InsertTypeKey}, {UpdateFieldsKey});
    GetWithout(item, {TableKey} + {InsertTypeKey} + {UpdateFieldsKey}, AliasKey);
    WithoutWithout(item, {TableKey} + {InsertTypeKey} + {UpdateFieldsKey}, {AliasKey});
  }

  /** `''.join(fields + update_fields) + insert_type + table_name`. */
  function CacheKey(s: Shape): string
  {
    Join(s.fields + s.updateFields, "") + s.insertType + s.table
  }

  /** An item naming only its table is a plain insert with no update fields
      into the `default` alias. */
  lemma ControlDefaults(item: Item, table: string)
    requires Get(item, TableKey) == Some(Text(table))
    requires InsertTypeKey !in Keys(item) && UpdateFieldsKey !in Keys(item) && AliasKey !in Keys(item)
    ensures ParseControl(item).shape == Ok(Shape(table, "insert", [], TextList(["default"]), Keys(Without(item, ControlKeys))))
  {
  }

  /** A single alias name becomes a one-element alias list. */
  lemma AliasNameBecomesList(item: Item, alias: string)
    requires Get(item, AliasKey) == Some(Text(alias))
    ensures ParseControl(item).shape.Ok? ==> ParseControl(item).shape.value.aliases == TextList([alias])
  {
  }

  /** Items whose shapes agree in everything the key is built from share one
      key, so they land in one group. */
  lemma SameShapeSameKey(a: Shape, b: Shape)
    requires a.fields == b.fields && a.updateFields == b.updateFields
    requires a.insertType == b.insertType && a.table == b.table
    ensures CacheKey(a) == CacheKey(b)
  {
  }

  /** The key is a plain concatenation, so different shapes can share a key:
      the field `y` moved from the update list to the field list is not seen. */
  lemma KeyConcatenationCollides()
    ensures
      var a := Shape("t", "insert", ["y"], TextList(["default"]), ["x"]);
      var b := Shape("t", "insert", [], TextList(["default"]), ["x", "y"]);
      a.fields != b.fields && CacheKey(a) == CacheKey(b)
  {
    assert Join(["x"] + ["y"], "") == "xy";
    assert Join(["x", "y"] + [], "") == "xy";
  }

  // ---------------------------------------------------------------------
  // Admission

  /** The row `parse_item_to_cache` appends: `[item[field] for field in fields]`. */
  function RowFor(fields: seq<string>, item: Item): (r: Result<Row, CacheError>)
    ensures r.Ok? <==> forall i :: 0 <= i < |fields| ==> fields[i] in Keys(item)
    ensures r.Ok? ==> |r.value| == |fields|
    ensures r.Ok? ==> forall i :: 0 <= i < |fields| ==> Get(item, fields[i]) == Some(r.value[i])
    ensures r.Err? ==> r.error.MissingField? && r.error.field in fields && r.error.field !in Keys(item)
  {
    if |fields| == 0 then Ok([])
    else
      match Get(item, fields[0])
      case None => Err(MissingField(fields[0]))
      case Some(v) =>
        var rest :- RowFor(fields[1..], item);
        Ok([v] + rest)
  }

  /** What the key-setting half of an admission returns: `(cache_key, len(buffer))`
      and the row it appended. */
  datatype Admitted = Admitted(key: string, count: nat, row: Row)

  /** The item after the pops, the cache afterwards, and the result or exception. */
  datatype Admission = Admission(item: Item, cache: Cache, outcome: Result<Admitted, CacheError>)

  /** `c2` is `c` with `row` appended to the buffer of `key`, creating the
      group at the end of the order if the key is new, and nothing else changed. */
  ghost predicate AppendedTo(c: Cache, c2: Cache, key: string, row: Row)
  {
    && key in c2.groups
    && c2.groups[key].rows == Buffer(c, key) + [row]
    && (key in c.groups ==> c2.order == c.order && c2.groups[key] == c.groups[key].(rows := c2.groups[key].rows))
    && (key !in c.groups ==> c2.order == c.order + [key])
    && c2.groups.Keys == c.groups.Keys + {key}
    && (forall k :: k in c.groups && k != key ==> c2.groups[k] == c.groups[k])
  }

  /** `row` holds the item's values of `fields`, in that order. */
  ghost predicate RowMatches(item: Item, fields: seq<string>, row: Row)
  {
    |row| == |fields| && forall i :: 0 <= i < |fields| ==> Get(item, fields[i]) == Some(row[i])
  }

  /** The group `parse_item_to_cache` stores for a new key, from the item's shape. */
  ghost predicate FreshGroup(dbType: string, s: Shape, g: Group)
  {
    && g.table == s.table && g.fields == s.fields && g.aliases == s.aliases
    && g.sql == SqlFormat.GetSql(dbType, s.insertType, s.table, s.fields, s.updateFields).ToOption()
  }

  /** The end of `parse_item_to_cache`: append the item's row to an existing group. */
  function Append(c: Cache, key: string, item: Item): (a: Admission)
    requires Valid(c) && key in c.groups
    ensures a.outcome.Ok? <==> RowFor(c.groups[key].fields, item).Ok?
    ensures a.item == item && Valid(a.cache)
    ensures Prepared(c) ==> Prepared(a.cache)
    ensures a.outcome.Err? ==> a.cache == c && a.outcome.error == RowFor(c.groups[key].fields, item).error
    ensures a.outcome.Ok? ==>
      var ad := a.outcome.value;
      var fields := c.groups[key].fields;
      && ad.key == key
      && AppendedTo(c, a.cache, key, ad.row)
      && ad.count == |a.cache.groups[key].rows|
      && RowMatches(item, fields, ad.row)
  {
    var g := c.groups[key];
    match RowFor(g.fields, item)
    case Err(e) => Admission(item, c, Err(e))
    case Ok(row) =>
      var rows := g.rows + [row];
      Admission(item, c.(groups := c.groups[key := g.(rows := rows)]), Ok(Admitted(key, |rows|, row)))
  }

  /** The group `parse_item_to_cache` stores for a new key: empty, at the end of the iteration order. */
  function Create(c: Cache, key: string, g: Group): (c2: Cache)
    requires Valid(c) && key !in c.groups && g.rows == []
    ensures Valid(c2)
    ensures c2.order == c.order + [key] && c2.groups == c.groups[key := g]
  {
    Cache(c.order + [key], c.groups[key := g])
  }

  /** `parse_item_to_cache` with the group created only once its statement
      is built: a failing builder leaves the cache as it was. */
  function Admit(dbType: string, c: Cache, item: Item): (a: Admission)
    requires Valid(c)
    ensures a.item == ParseControl(item).item
    ensures Valid(a.cache)
    ensures Prepared(c) ==> Prepared(a.cache)
    ensures a.outcome.Err? ==> a.cache == c
    ensures a.outcome.Ok? ==> ParseControl(item).shape.Ok? && a.outcome.value.key in a.cache.groups
    ensures a.outcome.Ok? ==>
      var s := ParseControl(item).shape.value;
      var ad := a.outcome.value;
      var g := a.cache.groups[ad.key];
      && ad.key == CacheKey(s)
      && AppendedTo(c, a.cache, ad.key, ad.row)
      && ad.count == |g.rows|
      && (ad.key !in c.groups ==> FreshGroup(dbType, s, g))
      && RowMatches(a.item, g.fields, ad.row)
  {
    var p := ParseControl(item);
    match p.shape
    case Err(e) => Admission(p.item, c, Err(e))
    case Ok(s) =>
      var key := CacheKey(s);
      if key in c.groups then Append(c, key, p.item)
      else
        match SqlFormat.GetSql(dbType, s.insertType, s.table, s.fields, s.updateFields)
        case Err(e) => Admission(p.item, c, Err(Unsupported(e.name)))
        case Ok(sql) =>
          var g := Group(s.table, s.fields, s.aliases, Some(sql), []);
          AdmitNewCreates(c, key, g, p.item);
          AdmitNew(c, key, g, p.item)
  }

  /** `parse_item_to_cache` for a key seen the first time, once its statement is built:
      the group is created with the item's own keys as fields, so appending
      the item's row cannot fail. */
  function AdmitNew(c: Cache, key: string, g: Group, item: Item): (a: Admission)
    requires Valid(c) && key !in c.groups && g.rows == [] && g.fields == Keys(item)
    ensures a.item == item && a.outcome.Ok? && a.outcome.value.key == key
  {
    assert forall i :: 0 <= i < |Keys(item)| ==> Keys(item)[i] in Keys(item);
    Append(Create(c, key, g), key, item)
  }

  /** The group of a new key holds exactly the item's row, and the other
      groups are as they were. */
  lemma AdmitNewCreates(c: Cache, key: string, g: Group, item: Item)
    requires Valid(c) && key !in c.groups && g.rows == [] && g.fields == Keys(item)
    ensures var a := AdmitNew(c, key, g, item);
      var row := a.outcome.value.row;
      && Valid(a.cache)
      && (Prepared(c) && g.sql.Some? ==> Prepared(a.cache))
      && AppendedTo(c, a.cache, key, row)
      && a.cache.groups[key] == g.(rows := [row])
      && a.outcome.value.count == 1
      && RowMatches(item, g.fields, row)
  {
    var c1 := Create(c, key, g);
    var a := Append(c1, key, item);
    CreateThenAppend(c, c1, a, key);
    AppendedKeepsPrepared(c, a.cache, key, a.outcome.value.row);
  }

  lemma AppendedKeepsPrepared(c: Cache, c2: Cache, key: string, row: Row)
    requires AppendedTo(c, c2, key, row)
    ensures Prepared(c) && c2.groups[key].sql.Some? ==> Prepared(c2)
  {
  }

  /** Exactly when an item is admitted: its control values parse and, for a
      known key, the item holds every field of the group; for a new key, the
      dispatcher has a builder. */
  lemma AdmittedExactly(dbType: string, c: Cache, item: Item)
    requires Valid(c)
    ensures Admit(dbType, c, item).outcome.Ok? <==>
      && ParseControl(item).shape.Ok?
      && var s := ParseControl(item).shape.value;
         if CacheKey(s) in c.groups
         then RowFor(c.groups[CacheKey(s)].fields, ParseControl(item).item).Ok?
         else SqlFormat.GetSql(dbType, s.insertType, s.table, s.fields, s.updateFields).Ok?
  {
    var p := ParseControl(item);
    if p.shape.Ok? && CacheKey(p.shape.value) !in c.groups {
      assert forall i :: 0 <= i < |Keys(p.item)| ==> Keys(p.item)[i] in Keys(p.item);
    }
  }

  /** Why an item is refused: the parse error, the first field of the group
      the item lacks, or the builder name the dispatcher does not know. */
  lemma RefusalReason(dbType: string, c: Cache, item: Item)
    requires Valid(c)
    ensures var a := Admit(dbType, c, item);
      var p := ParseControl(item);
      && (p.shape.Err? ==> a.outcome == Err(p.shape.error))
      && (p.shape.Ok? && CacheKey(p.shape.value) in c.groups &&
          RowFor(c.groups[CacheKey(p.shape.value)].fields, p.item).Err? ==>
            a.outcome == Err(RowFor(c.groups[CacheKey(p.shape.value)].fields, p.item).error))
      && (p.shape.Ok? && CacheKey(p.shape.value) !in c.groups ==>
            var s := p.shape.value;
            var sql := SqlFormat.GetSql(dbType, s.insertType, s.table, s.fields, s.updateFields);
            sql.Err? ==> a.outcome == Err(Unsupported(sql.error.name)))
  {
  }

  lemma CreateThenAppend(c: Cache, c1: Cache, a: Admission, key: string)
    requires key !in c.groups && key in c1.groups && c1.groups[key].rows == []
    requires c1.order == c.order + [key] && c1.groups.Keys == c.groups.Keys + {key}
    requires forall k :: k in c.groups ==> c1.groups[k] == c.groups[k]
    requires a.outcome.Ok? && a.outcome.value.key == key && AppendedTo(c1, a.cache, key, a.outcome.value.row)
    ensures AppendedTo(c, a.cache, key, a.outcome.value.row)
  {
  }

  /** `parse_item_to_cache` exactly as written: the alias, table, field and
      buffer entries of a new key are stored before the builder runs, so
      when the builder raises, the group stays behind
      without a statement. */
  function AdmitAsWritten(dbType: string, c: Cache, item: Item): (a: Admission)
    requires Valid(c)
    ensures a.item == ParseControl(item).item
    ensures Valid(a.cache)
    ensures ParseControl(item).shape.Ok? && CacheKey(ParseControl(item).shape.value) !in c.groups ==>
      CacheKey(ParseControl(item).shape.value) in a.cache.groups
  {
    var p := ParseControl(item);
    match p.shape
    case Err(e) => Admission(p.item, c, Err(e))
    case Ok(s) =>
      var key := CacheKey(s);
      if key in c.groups then Append(c, key, p.item)
      else
        match SqlFormat.GetSql(dbType, s.insertType, s.table, s.fields, s.updateFields)
        case Err(e) =>
          Admission(p.item, Create(c, key, Group(s.table, s.fields, s.aliases, None, [])), Err(Unsupported(e.name)))
        case Ok(sql) => Append(Create(c, key, Group(s.table, s.fields, s.aliases, Some(sql), [])), key, p.item)
  }

  /** The two admissions agree on the outcome and on the popped item for
      every input. Their caches differ only where the key is new and the
      dispatcher has no builder: as written, the group is stored anyway,
      without a statement. */
  lemma AsWrittenAgrees(dbType: string, c: Cache, item: Item)
    requires Valid(c)
    ensures AdmitAsWritten(dbType, c, item).outcome == Admit(dbType, c, item).outcome
    ensures AdmitAsWritten(dbType, c, item).item == Admit(dbType, c, item).item
    ensures var p := ParseControl(item);
      if p.shape.Ok? && CacheKey(p.shape.value) !in c.groups &&
         SqlFormat.GetSql(dbType, p.shape.value.insertType, p.shape.value.table,
                          p.shape.value.fields, p.shape.value.updateFields).Err?
      then
        var s := p.shape.value;
        AdmitAsWritten(dbType, c, item).cache == Create(c, CacheKey(s), Group(s.table, s.fields, s.aliases, None, []))
      else AdmitAsWritten(dbType, c, item).cache == Admit(dbType, c, item).cache
  {
  }

  /** As written, an item whose insert type has no builder is refused, and the
      next item of that shape, admitted right after the refusal, is accepted
      as the first row of the group that has no statement. */
  lemma AsWrittenAcceptsAfterRefusal(dbType: string, c: Cache, item: Item, item2: Item)
    requires Valid(c)
    requires ParseControl(item).shape.Ok? && ParseControl(item2).shape.Ok?
    requires var s := ParseControl(item).shape.value;
      var s2 := ParseControl(item2).shape.value;
      s2.fields == s.fields && s2.updateFields == s.updateFields &&
      s2.insertType == s.insertType && s2.table == s.table
    requires CacheKey(ParseControl(item).shape.value) !in c.groups
    requires var s := ParseControl(item).shape.value;
      SqlFormat.GetSql(dbType, s.insertType, s.table, s.fields, s.updateFields).Err?
    ensures
      var key := CacheKey(ParseControl(item).shape.value);
      var first := AdmitAsWritten(dbType, c, item);
      var second := AdmitAsWritten(dbType, first.cache, item2);
      && first.outcome.Err? && first.outcome.error.Unsupported?
      && key in first.cache.groups && first.cache.groups[key].sql.None?
      && second.outcome == Ok(Admitted(key, 1, second.outcome.value.row))
      && second.cache.groups[key].sql.None?
  {
    var p2 := ParseControl(item2);
    var key := CacheKey(ParseControl(item).shape.value);
    SameShapeSameKey(ParseControl(item).shape.value, p2.shape.value);
    var first := AdmitAsWritten(dbType, c, item);
    assert first.cache.groups[key].fields == Keys(p2.item);
    assert RowFor(Keys(p2.item), p2.item).Ok? by {
      assert forall i :: 0 <= i < |Keys(p2.item)| ==> Keys(p2.item)[i] in Keys(p2.item);
    }
  }

  /** The input of the finding: a `mysql` item with insert type `replace`. */
  function ReplaceItem(): Item
  {
    [Entry(TableKey, Text("t")), Entry(InsertTypeKey, Text("replace")), Entry("x", Number(1))]
  }

  lemma ReplaceItemHasNoBuilder()
    ensures DistinctKeys(ReplaceItem()) && ParseControl(ReplaceItem()).shape.Ok?
    ensures var s := ParseControl(ReplaceItem()).shape.value;
      SqlFormat.GetSql("mysql", s.insertType, s.table, s.fields, s.updateFields).Err?
  {
    var item := ReplaceItem();
    assert Get(item, TableKey) == Some(Text("t"));
    assert Get(item, InsertTypeKey) == Some(Text("replace"));
    assert Get(item, UpdateFieldsKey).None?;
  }

  /** That item, sent twice to an empty cache, is refused the first time and
      accepted the second. */
  lemma ReplaceTwiceAsWritten()
    ensures
      var first := AdmitAsWritten("mysql", EmptyCache(), ReplaceItem());
      var second := AdmitAsWritten("mysql", first.cache, ReplaceItem());
      first.outcome.Err? && second.outcome.Ok?
  {
    ReplaceItemHasNoBuilder();
    AsWrittenAcceptsAfterRefusal("mysql", EmptyCache(), ReplaceItem(), ReplaceItem());
  }

  /** With the corrected admission, a refused item leaves no trace in the
      cache: sending it again is refused in the same way, where the code as
      written accepts the second copy. */
  lemma RefusalLeavesNoGroup(dbType: string, c: Cache, item: Item)
    requires Valid(c)
    ensures var a := Admit(dbType, c, item);
      a.outcome.Err? ==> Admit(dbType, a.cache, item) == a
  {
  }

  /** The input of the finding under the corrected admission: both copies
      are refused and the cache stays empty. */
  lemma ReplaceTwiceCorrected()
    ensures
      var first := Admit("mysql", EmptyCache(), ReplaceItem());
      var second := Admit("mysql", first.cache, ReplaceItem());
      first.outcome.Err? && second.outcome.Err? && second.cache == EmptyCache()
  {
    ReplaceItemHasNoBuilder();
    RefusalReason("mysql", EmptyCache(), ReplaceItem());
  }

  /** A missing or None table name is refused before any group is touched. */
  lemma MissingTableRefused(dbType: string, c: Cache, item: Item)
    requires Valid(c)
    requires Get(item, TableKey).None? || Get(item, TableKey) == Some(Null)
    ensures var a := Admit(dbType, c, item);
      a.cache == c && a.outcome.Err? &&
      (Get(item, TableKey).None? ==> a.outcome.error == MissingTable && a.item == item) &&
      (Get(item, TableKey) == Some(Null) ==> a.outcome.error == TableIsNone)
  {
  }
}

=== FILE: items.dfy ===
/** A scraped item as the pipeline receives it: a Python dict, that is, an
    insertion-ordered sequence of entries with distinct keys. */
module Items {
  import opened Results

  /** The values an item field can hold, as far as the pipeline distinguishes them. */
  datatype Value = Null | Text(s: string) | Number(n: int) | TextList(xs: seq<string>)

  datatype Entry = Entry(key: string, value: Value)

  type Item = seq<Entry>

  predicate DistinctKeys(item: Item)
  {
    forall i, j :: 0 <= i < j < |item| ==> item[i].key != item[j].key
  }

  /** `list(item.keys())`, in insertion order. */
  function Keys(item: Item): (keys: seq<string>)
    ensures |keys| == |item|
    ensures forall i :: 0 <= i < |item| ==> keys[i] == item[i].key
  {
    if |item| == 0 then [] else [item[0].key] + Keys(item[1..])
  }

  /** `item.get(key)`: the value stored under `key`, if any. */
  function Get(item: Item, key: string): (r: Option<Value>)
    ensures r.None? <==> key !in Keys(item)
    ensures r.Some? ==> Entry(key, r.value) in item
  {
    if |item| == 0 then None
    else if item[0].key == key then Some(item[0].value)
    else Get(item[1..], key)
  }

  /** The item with every entry whose key is in `keys` removed, the others
      keeping their order: what `item.pop(k)` leaves for each `k` in `keys`. */
  function Without(item: Item, keys: set<string>): (r: Item)
    ensures forall e :: e in r <==> e in item && e.key !in keys
    ensures |r| <= |item|
  {
    if |item| == 0 then []
    else if item[0].key in keys then Without(item[1..], keys)
    else [item[0]] + Without(item[1..], keys)
  }

  lemma {:induction false} WithoutKeepsDistinct(item: Item, keys: set<string>)
    requires DistinctKeys(item)
    ensures DistinctKeys(Without(item, keys))
  {
    if |item| > 0 {
      WithoutKeepsDistinct(item[1..], keys);
      var rest := Without(item[1..], keys);
      forall e | e in rest
        ensures e.key != item[0].key
      {
        var j :| 0 <= j < |item[1..]| && item[1..][j] == e;
        assert item[j + 1] == e;
      }
    }
  }

  /** Popping keys one after the other leaves the same item as dropping them all at once. */
  lemma {:induction false} WithoutWithout(item: Item, first: set<string>, second: set<string>)
    ensures Without(Without(item, first), second) == Without(item, first + second)
  {
    if |item| > 0 {
      WithoutWithout(item[1..], first, second);
      if item[0].key !in first {
        var rest := Without(item[1..], first);
        assert ([item[0]] + rest)[1..] == rest;
      }
    }
  }

  /** In an item with distinct keys, `Get` reads back the value of an entry. */
  lemma {:induction false} GetEntry(item: Item, e: Entry)
    requires DistinctKeys(item)
    requires e in item
    ensures Get(item, e.key) == Some(e.value)
  {
    if item[0] != e {
      assert e in item[1..];
      GetEntry(item[1..], e);
      assert item[0].key != e.key by {
        var j :| 0 <= j < |item| && item[j] == e;
      }
    }
  }

  /** Removing other keys does not change what a key reads as. */
  lemma GetWithout(item: Item, keys: set<string>, key: string)
    requires DistinctKeys(item)
    requires key !in keys
    ensures Get(Without(item, keys), key) == Get(item, key)
  {
    WithoutKeepsDistinct(item, keys);
    var r := Without(item, keys);
    match Get(item, key)
    case Some(v) =>
      GetEntry(r, Entry(key, v));
    case None =>
  }
}

=== FILE: results.dfy ===
/** Failure-compatible wrappers used throughout the model: an optional value
    and a value-or-error result, both usable with `:-`. */
module Results {

  datatype Option<+T> = None | Some(value: T) {

    predicate IsFailure() {
      None?
    }

    function PropagateFailure<U>(): Option<U>
      requires None?
    {
      None
    }

    function Extract(): T
      requires Some?
    {
      value
    }

    /** Python's `d.get(k, default)` / `d.pop(k, default)` fallback. */
    function GetOr(default: T): T {
      match this
      case Some(v) => v
      case None => default
    }
  }

  /** A value or the exception the modelled code would raise. */
  datatype Result<+T, +E> = Ok(value: T) | Err(error: E) {

    predicate IsFailure() {
      Err?
    }

    function PropagateFailure<U>(): Result<U, E>
      requires Err?
    {
      Err(error)
    }

    function Extract(): T
      requires Ok?
    {
      value
    }

    function ToOption(): Option<T>
    {
      match this
      case Ok(v) => Some(v)
      case Err(_) => None
    }
  }
}

=== FILE: sql_format.dfy ===
/** The statement builder of the DB pipeline: MySQL `INSERT`, `INSERT IGNORE`
    and `INSERT ... ON DUPLICATE KEY UPDATE` text with one `%s` placeholder per
    column, a ClickHouse-style prefix without placeholders, and the dispatcher
    that picks a builder by the name `<db type>_<insert type>`.

    `ParseStatement` is an independent reader of the statement shape; the
    round-trip lemmas show that every builder's text reads back as the table,
    the columns in their given order, the placeholder count and the update
    columns it was built from. */
module SqlFormat {
  import opened Results
  import opened Text

  /** `','.join(['%s'] * n)`. */
  function Placeholders(n: nat): string
  {
    Join(seq(n, _ => "%s"), ",")
  }

  function CkInsert(table: string, fields: seq<string>): string
  {
    "INSERT INTO " + table + " (" + Join(fields, ",") + ") VALUES "
  }

  function MysqlInsert(table: string, fields: seq<string>): string
  {
    "INSERT INTO " + table + " (" + Join(fields, ",") + ") VALUES (" + Placeholders(|fields|) + ")"
  }

  function MysqlIgnoreInsert(table: string, fields: seq<string>): string
  {
    "INSERT IGNORE INTO " + table + " (" + Join(fields, ",") + ") VALUES (" + Placeholders(|fields|) + ")"
  }

  /** One `k = VALUES(k)` clause of an upsert. */
  function Assignment(key: string): string
  {
    key + " = VALUES(" + key + ")"
  }

  function Assignments(keys: seq<string>): (r: seq<string>)
    ensures |r| == |keys|
  {
    seq(|keys|, i requires 0 <= i < |keys| => Assignment(keys[i]))
  }

  /** An empty update list means "update every inserted column". */
  function UpdateTargets(fields: seq<string>, updateFields: seq<string>): seq<string>
  {
    if |updateFields| == 0 then fields else updateFields
  }

  function MysqlUpdateInsert(table: string, fields: seq<string>, updateFields: seq<string>): string
  {
    "INSERT INTO " + table + " (" + Join(fields, ",") + ") VALUES (" + Placeholders(|fields|) + ")"
    + " ON DUPLICATE KEY UPDATE " + Join(Assignments(UpdateTargets(fields, updateFields)), ",")
  }

  datatype SqlError = Unsupported(name: string)

  /** The builder names the dispatcher can find. */
  const Builders: set<string> := {"ck_insert", "mysql_insert", "mysql_ignore_insert", "mysql_update_insert"}

  function BuilderName(dbType: string, insertType: string): string
  {
    dbType + "_" + insertType
  }

  /** `get_sql(table, fields, update_fields, db_type=..., insert_type=...)`:
      the builder is looked up by the joined name, and a name without a
      builder is an error instead of text. */
  function GetSql(dbType: string, insertType: string, table: string, fields: seq<string>,
                  updateFields: seq<string>): (r: Result<string, SqlError>)
    ensures r.Ok? <==> BuilderName(dbType, insertType) in Builders
    ensures r.Err? ==> r.error == Unsupported(BuilderName(dbType, insertType))
  {
    var name := BuilderName(dbType, insertType);
    if name == "ck_insert" then Ok(CkInsert(table, fields))
    else if name == "mysql_insert" then Ok(MysqlInsert(table, fields))
    else if name == "mysql_ignore_insert" then Ok(MysqlIgnoreInsert(table, fields))
    else if name == "mysql_update_insert" then Ok(MysqlUpdateInsert(table, fields, updateFields))
    else Err(Unsupported(name))
  }

  lemma SamePrefix(p: string, x: string, y: string)
    ensures p + x == p + y <==> x == y
  {
    if p + x == p + y {
      assert x == (p + x)[|p|..];
    }
  }

  /** With the MySQL dialect exactly the three insert types `insert`,
      `ignore_insert` and `update_insert` have a builder, each the matching one. */
  lemma MysqlDispatch(insertType: string, table: string, fields: seq<string>, updateFields: seq<string>)
    ensures GetSql("mysql", insertType, table, fields, updateFields) ==
      if insertType == "insert" then Ok(MysqlInsert(table, fields))
      else if insertType == "ignore_insert" then Ok(MysqlIgnoreInsert(table, fields))
      else if insertType == "update_insert" then Ok(MysqlUpdateInsert(table, fields, updateFields))
      else Err(Unsupported("mysql_" + insertType))
  {
    var name := BuilderName("mysql", insertType);
    assert name == "mysql_" + insertType;
    if insertType == "insert" {
      assert name == "mysql_insert";
    } else if insertType == "ignore_insert" {
      assert name == "mysql_ignore_insert";
    } else if insertType == "update_insert" {
      assert name == "mysql_update_insert";
    } else {
      assert name[0] == 'm';
      SamePrefix("mysql_", insertType, "insert");
      SamePrefix("mysql_", insertType, "ignore_insert");
      SamePrefix("mysql_", insertType, "update_insert");
      assert "mysql_insert" == "mysql_" + "insert";
      assert "mysql_ignore_insert" == "mysql_" + "ignore_insert";
      assert "mysql_update_insert" == "mysql_" + "update_insert";
    }
  }

  /** The ClickHouse dialect has a builder for plain `insert` only. */
  lemma CkDispatch(insertType: string, table: string, fields: seq<string>, updateFields: seq<string>)
    ensures GetSql("ck", insertType, table, fields, updateFields) ==
      if insertType == "insert" then Ok(CkInsert(table, fields))
      else Err(Unsupported("ck_" + insertType))
  {
    var name := BuilderName("ck", insertType);
    assert name == "ck_" + insertType;
    assert name[0] == 'c';
    SamePrefix("ck_", insertType, "insert");
    assert "ck_insert" == "ck_" + "insert";
  }

  // ---------------------------------------------------------------------
  // Reading a statement back

  /** What a statement says: the `IGNORE` modifier, the table, the columns, the
      number of `%s` placeholders (None when there is no `(...)` after
      `VALUES`) and the columns reassigned on a duplicate key (None when there
      is no such clause). */
  datatype Statement = Statement(ignore: bool, table: string, columns: seq<string>,
                                 placeholders: Option<nat>, updates: Option<seq<string>>)

  function ParseList(s: string): seq<string>
  {
    if s == "" then [] else Split(s, ',')
  }

  function ParsePlaceholders(s: string): Option<nat>
  {
    var parts := ParseList(s);
    if forall i :: 0 <= i < |parts| ==> parts[i] == "%s" then Some(|parts|) else None
  }

  function ParseAssignment(s: string): Option<string>
  {
    var cut :- Cut(s, ' ');
    if cut.1 == "= VALUES(" + cut.0 + ")" then Some(cut.0) else None
  }

  function ParseAssignments(parts: seq<string>): Option<seq<string>>
  {
    if |parts| == 0 then Some([])
    else
      var key :- ParseAssignment(parts[0]);
      var rest :- ParseAssignments(parts[1..]);
      Some([key] + rest)
  }

  /** The part after `VALUES `: nothing, or a placeholder list optionally
      followed by an update clause. */
  function ParseValues(s: string): Option<(Option<nat>, Option<seq<string>>)>
  {
    if s == "" then Some((None, None))
    else
      var open :- DropPrefix(s, "(");
      var cut :- Cut(open, ')');
      var count :- ParsePlaceholders(cut.0);
      if cut.1 == "" then Some((Some(count), None))
      else
        var clause :- DropPrefix(cut.1, " ON DUPLICATE KEY UPDATE ");
        var updates :- ParseAssignments(ParseList(clause));
        Some((Some(count), Some(updates)))
  }

  /** From the opening parenthesis of the column list on. */
  function ParseColumns(ignore: bool, table: string, s: string): Option<Statement>
  {
    var columnsOpen :- DropPrefix(s, "(");
    var cutColumns :- Cut(columnsOpen, ')');
    var values :- DropPrefix(cutColumns.1, " VALUES ");
    var tail :- ParseValues(values);
    Some(Statement(ignore, table, ParseList(cutColumns.0), tail.0, tail.1))
  }

  function ParseStatement(sql: string): Option<Statement>
  {
    var ignore := StartsWith(sql, "INSERT IGNORE INTO ");
    var body :- DropPrefix(sql, if ignore then "INSERT IGNORE INTO " else "INSERT INTO ");
    var cutTable :- Cut(body, ' ');
    ParseColumns(ignore, cutTable.0, cutTable.1)
  }

  /** A column name the statement text keeps apart from its neighbours. */
  predicate Column(name: string)
  {
    name != "" && ' ' !in name && ',' !in name && ')' !in name
  }

  predicate Columns(names: seq<string>)
  {
    forall i :: 0 <= i < |names| ==> Column(names[i])
  }

  /** The column list reads back from its comma-joined text. */
  lemma ColumnsRoundTrip(names: seq<string>)
    requires Columns(names)
    ensures ParseList(Join(names, ",")) == names
    ensures ')' !in Join(names, ",")
  {
    JoinAvoids(names, ",", ')');
    if |names| > 0 {
      JoinNonEmpty(names, ",");
      SplitJoin(names, ',');
    }
  }

  /** `Placeholders(n)` reads back as `n` placeholders. */
  lemma PlaceholdersRoundTrip(n: nat)
    ensures ParsePlaceholders(Placeholders(n)) == Some(n)
    ensures ')' !in Placeholders(n)
  {
    var ps := seq(n, _ => "%s");
    JoinAvoids(ps, ",", ')');
    if n > 0 {
      JoinNonEmpty(ps, ",");
      SplitJoin(ps, ',');
    }
  }

  lemma {:induction false} AssignmentsRoundTrip(keys: seq<string>)
    requires Columns(keys)
    ensures ParseAssignments(ParseList(Join(Assignments(keys), ","))) == Some(keys)
  {
    var parts := Assignments(keys);
    forall i | 0 <= i < |parts|
      ensures ',' !in parts[i]
    {
      assert parts[i] == keys[i] + " = VALUES(" + keys[i] + ")";
    }
    if |keys| > 0 {
      assert parts[0] == keys[0] + " = VALUES(" + keys[0] + ")";
      JoinNonEmpty(parts, ",");
      SplitJoin(parts, ',');
    }
    AssignmentsParse(keys);
  }

  lemma AssignmentParse(key: string)
    requires Column(key)
    ensures ParseAssignment(Assignment(key)) == Some(key)
  {
    var rest := "= VALUES(" + key + ")";
    assert Assignment(key) == key + [' '] + rest;
    CutAt(key, ' ', rest);
  }

  lemma {:induction false} AssignmentsParse(keys: seq<string>)
    requires Columns(keys)
    ensures ParseAssignments(Assignments(keys)) == Some(keys)
  {
    if |keys| > 0 {
      var parts := Assignments(keys);
      assert parts[0] == Assignment(keys[0]);
      AssignmentParse(keys[0]);
      assert parts[1..] == Assignments(keys[1..]);
      AssignmentsParse(keys[1..]);
      assert [keys[0]] + keys[1..] == keys;
    }
  }

  /** The statement keyword and the table name read back. */
  lemma HeadRoundTrip(ignore: bool, table: string, rest: string)
    requires ' ' !in table
    ensures
      var head := if ignore then "INSERT IGNORE INTO " else "INSERT INTO ";
      ParseStatement(head + (table + [' '] + rest)) == ParseColumns(ignore, table, rest)
  {
    var head := if ignore then "INSERT IGNORE INTO " else "INSERT INTO ";
    var sql := head + (table + [' '] + rest);
    if ignore {
      assert sql[..19] == head;
      assert StartsWith(sql, "INSERT IGNORE INTO ");
    } else {
      assert sql[8] == 'N';
      assert !StartsWith(sql, "INSERT IGNORE INTO ");
    }
    DropPrefixOf(head, table + [' '] + rest);
    CutAt(table, ' ', rest);
  }

  /** The column list reads back, whatever follows `VALUES `. */
  lemma ColumnsStageRoundTrip(ignore: bool, table: string, fields: seq<string>, values: string)
    requires Columns(fields)
    ensures ParseColumns(ignore, table, "(" + Join(fields, ",") + ") VALUES " + values) ==
      match ParseValues(values)
      case None => None
      case Some(tail) => Some(Statement(ignore, table, fields, tail.0, tail.1))
  {
    var cols := Join(fields, ",");
    var afterOpen := cols + [')'] + (" VALUES " + values);
    assert "(" + cols + ") VALUES " + values == "(" + afterOpen;
    DropPrefixOf("(", afterOpen);
    ColumnsRoundTrip(fields);
    CutAt(cols, ')', " VALUES " + values);
    DropPrefixOf(" VALUES ", values);
  }

  /** Everything from the table name on reads back, whatever follows `VALUES `. */
  lemma BodyRoundTrip(ignore: bool, table: string, fields: seq<string>, values: string)
    requires ' ' !in table && Columns(fields)
    ensures
      var head := if ignore then "INSERT IGNORE INTO " else "INSERT INTO ";
      var sql := head + table + " (" + Join(fields, ",") + ") VALUES " + values;
      ParseStatement(sql) ==
        match ParseValues(values)
        case None => None
        case Some(tail) => Some(Statement(ignore, table, fields, tail.0, tail.1))
  {
    var head := if ignore then "INSERT IGNORE INTO " else "INSERT INTO ";
    var rest := "(" + Join(fields, ",") + ") VALUES " + values;
    assert head + table + " (" + Join(fields, ",") + ") VALUES " + values == head + (table + [' '] + rest);
    HeadRoundTrip(ignore, table, rest);
    ColumnsStageRoundTrip(ignore, table, fields, values);
  }

  /** The placeholder list and what follows it read back. */
  lemma ValuesRoundTrip(n: nat, clause: string)
    ensures ParseValues("(" + Placeholders(n) + ")" + clause) ==
      if clause == "" then Some((Some(n), None))
      else match DropPrefix(clause, " ON DUPLICATE KEY UPDATE ")
        case None => None
        case Some(text) =>
          match ParseAssignments(ParseList(text))
          case None => None
          case Some(updates) => Some((Some(n), Some(updates)))
  {
    var ps := Placeholders(n);
    var afterOpen := ps + [')'] + clause;
    assert "(" + ps + ")" + clause == "(" + afterOpen;
    DropPrefixOf("(", afterOpen);
    PlaceholdersRoundTrip(n);
    CutAt(ps, ')', clause);
  }

  /** `ck_insert` names the table and columns but has no placeholders. */
  lemma CkInsertRoundTrip(table: string, fields: seq<string>)
    requires ' ' !in table && Columns(fields)
    ensures ParseStatement(CkInsert(table, fields)) == Some(Statement(false, table, fields, None, None))
  {
    BodyRoundTrip(false, table, fields, "");
    assert CkInsert(table, fields) == "INSERT INTO " + table + " (" + Join(fields, ",") + ") VALUES " + "";
  }

  /** The placeholder list of a plain insert reads back as `n` placeholders. */
  lemma PlainValuesRoundTrip(n: nat)
    ensures ParseValues("(" + Placeholders(n) + ")") == Some((Some(n), None))
  {
    ValuesRoundTrip(n, "");
    assert "(" + Placeholders(n) + ")" + "" == "(" + Placeholders(n) + ")";
  }

  /** `mysql_insert` has one placeholder per column, columns in the given order. */
  lemma MysqlInsertRoundTrip(table: string, fields: seq<string>)
    requires ' ' !in table && Columns(fields)
    ensures ParseStatement(MysqlInsert(table, fields)) ==
      Some(Statement(false, table, fields, Some(|fields|), None))
  {
    var values := "(" + Placeholders(|fields|) + ")";
    var sql := "INSERT INTO " + table + " (" + Join(fields, ",") + ") VALUES " + values;
    assert MysqlInsert(table, fields) == sql;
    PlainValuesRoundTrip(|fields|);
    BodyRoundTrip(false, table, fields, values);
  }

  /** `mysql_ignore_insert` reads back like `mysql_insert` plus the `IGNORE` modifier. */
  lemma MysqlIgnoreInsertRoundTrip(table: string, fields: seq<string>)
    requires ' ' !in table && Columns(fields)
    ensures ParseStatement(MysqlIgnoreInsert(table, fields)) ==
      Some(Statement(true, table, fields, Some(|fields|), None))
  {
    var values := "(" + Placeholders(|fields|) + ")";
    var sql := "INSERT IGNORE INTO " + table + " (" + Join(fields, ",") + ") VALUES " + values;
    assert MysqlIgnoreInsert(table, fields) == sql;
    PlainValuesRoundTrip(|fields|);
    BodyRoundTrip(true, table, fields, values);
  }

  /** The placeholder list and update clause of an upsert read back. */
  lemma UpsertValuesRoundTrip(n: nat, targets: seq<string>)
    requires Columns(targets)
    ensures ParseValues("(" + Placeholders(n) + ")" + (" ON DUPLICATE KEY UPDATE " + Join(Assignments(targets), ",")))
      == Some((Some(n), Some(targets)))
  {
    var text := Join(Assignments(targets), ",");
    var clause := " ON DUPLICATE KEY UPDATE " + text;
    ValuesRoundTrip(n, clause);
    DropPrefixOf(" ON DUPLICATE KEY UPDATE ", text);
    AssignmentsRoundTrip(targets);
  }

  /** `mysql_update_insert` reassigns the update columns in their order, and
      every inserted column when the update list is empty. */
  lemma MysqlUpdateInsertRoundTrip(table: string, fields: seq<string>, updateFields: seq<string>)
    requires ' ' !in table && Columns(fields) && Columns(updateFields)
    ensures ParseStatement(MysqlUpdateInsert(table, fields, updateFields)) ==
      Some(Statement(false, table, fields, Some(|fields|),
                     Some(if updateFields == [] then fields else updateFields)))
  {
    var targets := UpdateTargets(fields, updateFields);
    var values := "(" + Placeholders(|fields|) + ")" + (" ON DUPLICATE KEY UPDATE " + Join(Assignments(targets), ","));
    var sql := "INSERT INTO " + table + " (" + Join(fields, ",") + ") VALUES " + values;
    assert MysqlUpdateInsert(table, fields, updateFields) == sql;
    UpsertValuesRoundTrip(|fields|, targets);
    BodyRoundTrip(false, table, fields, values);
  }

  /** The plain and the ignoring insert differ only by the `IGNORE ` keyword
      after `INSERT `. */
  lemma IgnoreOnlyAddsKeyword(table: string, fields: seq<string>)
    ensures MysqlIgnoreInsert(table, fields) == "INSERT IGNORE " + MysqlInsert(table, fields)[7..]
  {
    var rest := "INTO " + table + " (" + Join(fields, ",") + ") VALUES (" + Placeholders(|fields|) + ")";
    assert MysqlInsert(table, fields) == "INSERT " + rest;
    assert MysqlIgnoreInsert(table, fields) == "INSERT IGNORE " + rest;
    assert ("INSERT " + rest)[7..] == rest;
  }

  /** The upsert is the plain insert followed by the update clause, and the
      ClickHouse prefix is the plain insert without its placeholder list. */
  lemma BuildersExtendEachOther(table: string, fields: seq<string>, updateFields: seq<string>)
    ensures MysqlUpdateInsert(table, fields, updateFields) ==
      MysqlInsert(table, fields) + " ON DUPLICATE KEY UPDATE " +
      Join(Assignments(UpdateTargets(fields, updateFields)), ",")
    ensures MysqlInsert(table, fields) == CkInsert(table, fields) + "(" + Placeholders(|fields|) + ")"
  {
  }

  /** With no `%` in the table or column names, the ClickHouse prefix contains
      no `%s` placeholder at all and ends in `VALUES `. */
  lemma CkInsertHasNoPlaceholder(table: string, fields: seq<string>)
    requires '%' !in table
    requires forall i :: 0 <= i < |fields| ==> '%' !in fields[i]
    ensures '%' !in CkInsert(table, fields)
    ensures CkInsert(table, fields)[|CkInsert(table, fields)| - 7..] == "VALUES "
  {
    JoinAvoids(fields, ",", '%');
  }
}

=== FILE: text.dfy ===
/** String helpers with Python's meaning: `sep.join(xs)`, `s.split(c)`,
    `s.partition(c)` and prefix removal, plus the facts that make them
    inverses of each other. */
module Text {
  import opened Results

  /** Python's `sep.join(xs)`. */
  function Join(xs: seq<string>, sep: string): string
  {
    if |xs| == 0 then ""
    else if |xs| == 1 then xs[0]
    else xs[0] + sep + Join(xs[1..], sep)
  }

  /** Python's `s.split(c)` for a one-character separator: always at least one part. */
  function Split(s: string, c: char): (parts: seq<string>)
    ensures |parts| >= 1
  {
    if |s| == 0 then [""]
    else
      var rest := Split(s[1..], c);
      if s[0] == c then [""] + rest else [[s[0]] + rest[0]] + rest[1..]
  }

  /** Python's `s.partition(c)` when `c` occurs: the text before and after its
      first occurrence. */
  function Cut(s: string, c: char): (r: Option<(string, string)>)
    ensures r.None? <==> c !in s
    ensures r.Some? ==> s == r.value.0 + [c] + r.value.1 && c !in r.value.0
  {
    if |s| == 0 then None
    else if s[0] == c then Some(([], s[1..]))
    else
      match Cut(s[1..], c)
      case None => None
      case Some(parts) => Some(([s[0]] + parts.0, parts.1))
  }

  predicate StartsWith(s: string, prefix: string) {
    |prefix| <= |s| && s[..|prefix|] == prefix
  }

  /** The text after `prefix`, if `s` starts with it. */
  function DropPrefix(s: string, prefix: string): (r: Option<string>)
    ensures r.Some? <==> StartsWith(s, prefix)
    ensures r.Some? ==> s == prefix + r.value
  {
    if StartsWith(s, prefix) then Some(s[|prefix|..]) else None
  }

  /** A character absent from every part and from the separator is absent from the joined text. */
  lemma {:induction false} JoinAvoids(xs: seq<string>, sep: string, c: char)
    requires c !in sep
    requires forall i :: 0 <= i < |xs| ==> c !in xs[i]
    ensures c !in Join(xs, sep)
  {
    if |xs| > 1 {
      JoinAvoids(xs[1..], sep, c);
    }
  }

  /** Joining a non-empty list whose first part is non-empty gives non-empty text. */
  lemma JoinNonEmpty(xs: seq<string>, sep: string)
    requires |xs| >= 1 && xs[0] != ""
    ensures Join(xs, sep) != ""
  {
    if |xs| > 1 {
      assert |Join(xs, sep)| >= |xs[0]|;
    }
  }

  lemma DropPrefixOf(prefix: string, rest: string)
    ensures DropPrefix(prefix + rest, prefix) == Some(rest)
  {
    assert (prefix + rest)[..|prefix|] == prefix;
    assert (prefix + rest)[|prefix|..] == rest;
  }

  lemma {:induction false} CutAt(a: string, c: char, b: string)
    requires c !in a
    ensures Cut(a + [c] + b, c) == Some((a, b))
  {
    if |a| == 0 {
      assert a + [c] + b == [c] + b;
    } else {
      var s := a + [c] + b;
      assert s[0] == a[0] && a[0] != c;
      assert s[1..] == a[1..] + [c] + b;
      CutAt(a[1..], c, b);
      assert [a[0]] + a[1..] == a;
    }
  }

  lemma {:induction false} SplitFree(s: string, c: char)
    requires c !in s
    ensures Split(s, c) == [s]
  {
    if |s| > 0 {
      SplitFree(s[1..], c);
      assert [s[0]] + s[1..] == s;
    }
  }

  lemma {:induction false} SplitAt(a: string, c: char, b: string)
    requires c !in a
    ensures Split(a + [c] + b, c) == [a] + Split(b, c)
  {
    if |a| == 0 {
      assert a + [c] + b == [c] + b;
      assert ([c] + b)[1..] == b;
    } else {
      SplitAt(a[1..], c, b);
      assert (a + [c] + b)[1..] == a[1..] + [c] + b;
      assert [a[0]] + a[1..] == a;
    }
  }

  /** Splitting on the separator recovers the joined parts, in order, when no
      part contains the separator. */
  lemma {:induction false} SplitJoin(xs: seq<string>, c: char)
    requires |xs| >= 1
    requires forall i :: 0 <= i < |xs| ==> c !in xs[i]
    ensures Split(Join(xs, [c]), c) == xs
  {
    if |xs| == 1 {
      SplitFree(xs[0], c);
    } else {
      SplitJoin(xs[1..], c);
      SplitAt(xs[0], c, Join(xs[1..], [c]));
      assert xs[0] + [c] + Join(xs[1..], [c]) == Join(xs, [c]);
      assert [xs[0]] + xs[1..] == xs;
    }
  }
}

=== FILE: url_length.dfy ===
/** `UrlLengthMiddleware`: a spider middleware that drops the requests a
    callback produces when their URL is longer than a configured limit, lets
    everything else through in order, and counts what it dropped. */
module UrlLength {
  import opened Results
  import opened Config

  const LimitSetting := "URLLENGTH_LIMIT"
  const IgnoredStat := "urllength/request_ignored_count"

  /** What a spider callback yields: a request (its URL and whatever else it
      carries) or anything else (an item, typically). */
  datatype Output<R, T> = Request(url: string, rest: R) | Other(value: T)

  datatype Middleware = Middleware(maxLength: int)

  /** `from_settings` refuses to build the middleware. */
  datatype NotConfigured = NotConfigured

  /** `from_settings`: the limit comes from `URLLENGTH_LIMIT`, read as an
      integer with 0 when unset; a limit of 0 disables the middleware. */
  function FromSettings(settings: Settings): (r: Result<Middleware, NotConfigured>)
    ensures r.Err? <==> LimitSetting !in settings || settings[LimitSetting] == 0
    ensures r.Ok? ==> r.value.maxLength == settings[LimitSetting] && r.value.maxLength != 0
  {
    var maxLength := GetInt(settings, LimitSetting, 0);
    if maxLength == 0 then Err(NotConfigured) else Ok(Middleware(maxLength))
  }

  /** `_filter`: false exactly for a request whose URL is too long. */
  predicate Keep<R, T>(m: Middleware, o: Output<R, T>)
  {
    !(o.Request? && |o.url| > m.maxLength)
  }

  // ---------------------------------------------------------------------
  // Reference definitions

  /** The outputs `_filter` accepts, in their order. */
  function Kept<R, T>(m: Middleware, xs: seq<Output<R, T>>): seq<Output<R, T>>
  {
    if |xs| == 0 then [] else (if Keep(m, xs[0]) then [xs[0]] else []) + Kept(m, xs[1..])
  }

  /** How many outputs `_filter` rejects. */
  function Dropped<R, T>(m: Middleware, xs: seq<Output<R, T>>): nat
  {
    if |xs| == 0 then 0 else (if Keep(m, xs[0]) then 0 else 1) + Dropped(m, xs[1..])
  }

  /** The non-request outputs, in their order. */
  function Others<R, T>(xs: seq<Output<R, T>>): seq<Output<R, T>>
  {
    if |xs| == 0 then [] else (if xs[0].Other? then [xs[0]] else []) + Others(xs[1..])
  }

  /** `a` is `b` with some elements left out, the rest in their order. */
  ghost predicate SubsequenceOf<X>(a: seq<X>, b: seq<X>)
    decreases |b|
  {
    if |a| == 0 then true
    else if |b| == 0 then false
    else (a[0] == b[0] && SubsequenceOf(a[1..], b[1..])) || SubsequenceOf(a, b[1..])
  }

  lemma {:induction false} KeptAppend<R, T>(m: Middleware, xs: seq<Output<R, T>>, ys: seq<Output<R, T>>)
    ensures Kept(m, xs + ys) == Kept(m, xs) + Kept(m, ys)
    ensures Dropped(m, xs + ys) == Dropped(m, xs) + Dropped(m, ys)
  {
    if |xs| == 0 {
      assert xs + ys == ys;
    } else {
      assert (xs + ys)[1..] == xs[1..] + ys;
      KeptAppend(m, xs[1..], ys);
    }
  }

  // ---------------------------------------------------------------------
  // The middleware

  /** The stats collector's counters by name. */
  type Stats = map<string, int>

  /** `stats.inc_value(key, count)`: a counter starts at 0. */
  function IncValue(stats: Stats, key: string, count: int): Stats
  {
    stats[key := (if key in stats then stats[key] else 0) + count]
  }

  /** The stats after `_filter` has rejected `dropped` requests: the
      counter is only touched by a drop. */
  function AfterDrops(stats: Stats, dropped: nat): Stats
  {
    if dropped == 0 then stats else IncValue(stats, IgnoredStat, dropped)
  }

  /** `process_spider_output` consumed to the end: the outputs that pass
      `_filter`, in order, and the stats after one increment of the ignored
      counter per dropped request. A missing result yields nothing. */
  method ProcessSpiderOutput<R, T>(m: Middleware, result: Option<seq<Output<R, T>>>, stats: Stats)
    returns (out: seq<Output<R, T>>, stats': Stats)
    ensures result.None? ==> out == [] && stats' == stats
    ensures result.Some? ==> out == Kept(m, result.value)
    ensures result.Some? ==> stats' == AfterDrops(stats, Dropped(m, result.value))
    ensures result.Some? && IgnoredStat in stats ==>
      stats'[IgnoredStat] == stats[IgnoredStat] + |result.value| - |out|
  {
    var xs := if result.Some? then result.value else [];
    out := [];
    stats' := stats;
    var dropped := 0;
    for i := 0 to |xs|
      invariant out == Kept(m, xs[..i])
      invariant dropped == Dropped(m, xs[..i])
      invariant stats' == AfterDrops(stats, dropped)
    {
      KeptAppend(m, xs[..i], [xs[i]]);
      assert xs[..i + 1] == xs[..i] + [xs[i]];
      if Keep(m, xs[i]) {
        out := out + [xs[i]];
      } else {
        stats' := IncValue(stats', IgnoredStat, 1);
        dropped := dropped + 1;
      }
    }
    assert xs[..|xs|] == xs;
    KeptCount(m, xs);
  }

  /** `process_spider_output` as written: `result or ()` puts a tuple where `async for`
      needs an asynchronous iterable, so a missing result raises a TypeError
      when the generator expression is built instead of yielding nothing. */
  datatype NotAsyncIterable = NotAsyncIterable

  function FilterAsWritten<R, T>(m: Middleware, result: Option<seq<Output<R, T>>>): (r: Result<seq<Output<R, T>>, NotAsyncIterable>)
    ensures r.Err? <==> result.None?
    ensures r.Ok? ==> r.value == Kept(m, result.value)
  {
    match result
    case None => Err(NotAsyncIterable)
    case Some(xs) => Ok(Kept(m, xs))
  }

  /** The fallback meant for a missing result raises instead, where the
      corrected middleware yields nothing. */
  lemma MissingResultRaises<R, T>(m: Middleware)
    ensures FilterAsWritten<R, T>(m, None).Err?
  {
  }

  // ---------------------------------------------------------------------
  // Properties of the filter

  /** An output survives exactly when it is not a request, or is a request
      whose URL is within the limit. */
  lemma {:induction false} KeptMembers<R, T>(m: Middleware, xs: seq<Output<R, T>>, o: Output<R, T>)
    ensures o in Kept(m, xs) <==> o in xs && (o.Other? || |o.url| <= m.maxLength)
  {
    if |xs| > 0 {
      KeptMembers(m, xs[1..], o);
      assert xs == [xs[0]] + xs[1..];
    }
  }

  /** Every output is either kept or counted as dropped. */
  lemma {:induction false} KeptCount<R, T>(m: Middleware, xs: seq<Output<R, T>>)
    ensures |Kept(m, xs)| + Dropped(m, xs) == |xs|
  {
    if |xs| > 0 {
      KeptCount(m, xs[1..]);
    }
  }

  /** The outputs `_filter` rejects, in their order. */
  function Rejected<R, T>(m: Middleware, xs: seq<Output<R, T>>): seq<Output<R, T>>
  {
    if |xs| == 0 then [] else (if Keep(m, xs[0]) then [] else [xs[0]]) + Rejected(m, xs[1..])
  }

  /** The drop count is the number of rejected outputs, and those are exactly
      the requests whose URL is over the limit. */
  lemma {:induction false} DroppedAreLongRequests<R, T>(m: Middleware, xs: seq<Output<R, T>>, o: Output<R, T>)
    ensures Dropped(m, xs) == |Rejected(m, xs)|
    ensures o in Rejected(m, xs) <==> o in xs && o.Request? && |o.url| > m.maxLength
  {
    if |xs| > 0 {
      DroppedAreLongRequests(m, xs[1..], o);
      assert xs == [xs[0]] + xs[1..];
    }
  }

  /** The filter keeps order: its output is a subsequence of its input. */
  lemma {:induction false} KeptIsSubsequence<R, T>(m: Middleware, xs: seq<Output<R, T>>)
    ensures SubsequenceOf(Kept(m, xs), xs)
    decreases |xs|
  {
    if |xs| > 0 {
      KeptIsSubsequence(m, xs[1..]);
      var rest := Kept(m, xs[1..]);
      if Keep(m, xs[0]) {
        assert ([xs[0]] + rest)[1..] == rest;
      } else {
        assert [] + rest == rest;
      }
    }
  }

  /** Non-request outputs all pass, unchanged and in their order. */
  lemma {:induction false} OthersPass<R, T>(m: Middleware, xs: seq<Output<R, T>>)
    ensures Others(Kept(m, xs)) == Others(xs)
  {
    if |xs| > 0 {
      OthersPass(m, xs[1..]);
      var rest := Kept(m, xs[1..]);
      if Keep(m, xs[0]) {
        assert ([xs[0]] + rest)[1..] == rest;
      } else {
        assert [] + rest == rest;
      }
    }
  }

  /** Within the limit the middleware is the identity. */
  lemma {:induction false} ShortOutputsAllPass<R, T>(m: Middleware, xs: seq<Output<R, T>>)
    requires forall i :: 0 <= i < |xs| ==> xs[i].Request? ==> |xs[i].url| <= m.maxLength
    ensures Kept(m, xs) == xs && Dropped(m, xs) == 0
  {
    if |xs| > 0 {
      ShortOutputsAllPass(m, xs[1..]);
      assert xs == [xs[0]] + xs[1..];
    }
  }

  /** Filtering twice is filtering once. */
  lemma {:induction false} KeptIdempotent<R, T>(m: Middleware, xs: seq<Output<R, T>>)
    ensures Kept(m, Kept(m, xs)) == Kept(m, xs)
  {
    var ys := Kept(m, xs);
    forall i | 0 <= i < |ys| && ys[i].Request?
      ensures |ys[i].url| <= m.maxLength
    {
      assert ys[i] in ys;
      KeptMembers(m, xs, ys[i]);
    }
    ShortOutputsAllPass(m, ys);
  }
}
